=== FILE: README.md ===
# socketcan-go, modelled in Dafny

socketcan-go is a Go library for Linux SocketCAN. It encodes CAN frames
into the 16-byte `struct can_frame` the raw socket expects and decodes
them back. It builds acceptance-filter entries. It also talks rtnetlink
to a CAN interface: it brings the link up or down, reads the link's
description (name, bit timing, timing constants, clock, control mode,
error counters, statistics), and changes the bitrate or the listen-only
mode.

This project models the library's pure core as Dafny functions over
immutable values and proves what the code promises about them.

| file | module | models |
|---|---|---|
| `results.dfy` | `Results` | the error conditions, `Option` and a failure-compatible `Result` |
| `bytes.dfy` | `Bytes` | `uint8`/`uint16`/`uint32`/`int32`, little-endian words, signed/unsigned views, runs of u32 fields |
| `can_id.dfy` | `CanId` | the identifier word: 29 identifier bits plus the EFF/RTR/ERR flags, and ORing a flag in |
| `canframe.dfy` | `CanFrame` | `canframe.Frame` and its `Marshal`/`Unmarshal` |
| `fixed_frame.dfy` | `FixedFrame` | the fixed-array `Frame` and its `marshal` |
| `filter.dfy` | `Filter` | the four filter constructors |
| `link_structs.dfy` | `LinkStructs` | `CanBitTiming`, `CanCtrlMode` (both ways), and the decode of `CanBitTimingConst`, `CanClock`, `CanBusErrCounters`, `CanDevStats` |
| `if_info.dfy` | `IfInfo` | the 16-byte `ifInfoMsg` link header, both ways |
| `link_info.dfy` | `LinkInfo` | `respondData.unmarshalBinary`, `Info.decode`, `Info.decodeData`, `Info.encode`, `Info.encodeData` over an abstract attribute list |
| `device.dfy` | `Device` | `newRequest`, the SetUp/SetDown requests, the reply-count guard, `updateInfo`, `IsUp`, `Info`, `Bitrate`, `initSetParameters`, and the SetBitrate/SetListenOnlyMode requests |

Go's fixed-width integers are bounded `int` subtypes. A bit is read with
a division and a remainder by a power of two. ORing a one-bit constant
into a word adds the bit when it is clear.

Netlink attributes are modelled abstractly, because their wire format
belongs to the mdlayher/netlink library. A received attribute is its
type with the nested and byte-order flag bits removed, its payload, and
the attribute list the payload parses into (`None` when it does not
parse). The model follows that library's behaviour in these points:

- `AttributeDecoder.Nested` records the callback's error, or the nested
  decoder's own error, and `Next` stops once an error is recorded. So in
  every loop the first error aborts the whole decode.
- `AttributeDecoder.String` drops all trailing NUL bytes.
- `AttributeEncoder.String` appends one NUL byte.

## Model

| member | source | states |
|---|---|---|
| Bytes.U32RoundTrip | canraw_linux.go:474-504 | a u32 field written little-endian and read back is unchanged |
| Bytes.U32Canonical | canraw_linux.go:487-504 | any four bytes are the encoding of the word read from them, so field decoding loses no information |
| Bytes.SignedViewsInverse | canraw_linux.go:618 | reading the index bits as `int32` undoes the `uint32(Index)` the encoder applies, and the reverse |
| Bytes.ToInt32 | canraw_linux.go:51 | `int32(Index)` agrees with the index modulo 2^32 and is the index itself when it fits in 32 signed bits |
| Bytes.PackU32s | canraw_linux.go:474-485 | a run of u32 fields is written as four bytes per field, field i little-endian at offset 4i |
| Bytes.UnpackPack | canraw_linux.go:474-485 | a run of u32 fields packed at consecutive 4-byte offsets unpacks to the same fields |
| Bytes.PackUnpack | canraw_linux.go:487-504 | a byte image whose length is a multiple of four is the packing of its fields |
| CanId.SetEff | canframe/frame_linux.go:27-29 | ORing in CAN_EFF_FLAG sets bit 31 and keeps the identifier bits and the other two flags |
| CanId.SetRtr | canframe/frame_linux.go:30-32 | ORing in CAN_RTR_FLAG sets bit 30 and keeps everything else |
| CanId.SetErr | canframe/frame_linux.go:33-35 | ORing in CAN_ERR_FLAG sets bit 29 and keeps everything else |
| CanId.IdWord | canframe/frame_linux.go:26-35 | the wire word keeps the identifier's low 29 bits; each flag bit is set iff its boolean is set or the unmasked identifier already had that bit |
| CanId.IdWordRecoverable | canframe/frame_linux.go:62-73 | for an identifier of at most 29 bits, masking and the three flag tests on the wire word give back the identifier and each boolean exactly |
| CanId.IdWordSplit | canframe/frame_linux.go:62-73 | every word is the wire word of its own identifier bits and flags, so decoding a word and re-encoding it is the identity |
| CanFrame.Clamp | canframe/frame_linux.go:37-41 | the length code is the payload length, capped at 8 |
| CanFrame.Marshal | canframe/frame_linux.go:23-50 | 16 bytes: identifier word with the flags ORed in, the capped length, three zero pad bytes, the payload zero-filled to 8 bytes |
| CanFrame.Unmarshal | canframe/frame_linux.go:52-82 | no bytes is end-of-input; 1 to 15 bytes is unexpected-end; otherwise the identifier is masked, each flag is set when its bit is set (never cleared), the payload is the first min(length code, 8) data bytes |
| CanFrame.RoundTrip | canframe/frame_linux.go:23-82 | a frame with a 29-bit identifier and at most 8 data bytes decodes, into a zero frame, to itself |
| CanFrame.DecodeMarshalled | canframe/frame_linux.go:23-82 | for any frame, decoding its image gives the identifier's low 29 bits, each flag ORed with its identifier bit, and the first min(len, 8) data bytes |
| CanFrame.Truncation | canframe/frame_linux.go:37-42 | a payload longer than 8 bytes goes out as its first 8 bytes, with length code 8, and comes back truncated |
| CanFrame.IgnoresTrailingBytes | canframe/frame_linux.go:56-57 | only the first 16 input bytes are read |
| CanFrame.CanonicalImage | canframe/frame_linux.go:52-82 | a 16-byte image with length code at most 8, zero padding and zero bytes past the payload re-encodes to itself after decoding |
| CanFrame.StaleFlagSurvives | canframe/frame_linux.go:65-73 | decoding any image of 16 or more bytes into a target keeps every flag the target already has, even when the image clears it; a data frame decoded into a target with the error flag set comes back as an error frame |
| CanFrame.WireVector | canframe/frame_linux.go:23-50 | an extended frame with id 0x20 and payload 01 02 03 55 encodes to `20 00 00 80 04 00 00 00 01 02 03 55 00 00 00 00` |
| FixedFrame.Marshal | frame.go:44-64 | identifier word with flags ORed in, the `Length` byte unchanged, three zero bytes, all 8 data bytes |
| FixedFrame.IdentifierRecoverable | frame.go:44-56 | for an identifier of at most 29 bits the wire word gives back the identifier and each flag |
| FixedFrame.LengthNotClamped | frame.go:60 | a length of 9 goes out as 9, a code the slice codec can never produce |
| FixedFrame.AgreesWithSliceCodec | frame.go:44-64 | when `Length` is at most 8, matches the data and the rest is zero, both encoders produce the same image |
| FixedFrame.DemoVector | demo/main.go:10-17 | the frame the demo sends encodes to `20 00 00 80 04 00 00 00 01 02 03 55 00 00 00 00` |
| Filter.NewStdFilter | filter.go:10-15 | the identifier as given, with the 11-bit standard mask |
| Filter.NewStdInvFilter | filter.go:17-22 | the identifier with CAN_INV_FILTER set and every other bit kept, with the standard mask |
| Filter.NewExtFilter | filter.go:24-29 | the identifier as given, with the 29-bit extended mask |
| Filter.NewExtInvFilter | filter.go:31-36 | the identifier with CAN_INV_FILTER set and every other bit kept, with the extended mask |
| Filter.InvertedIsPlainWithBit29 | filter.go:10-36 | an inverted filter has the plain filter's mask, and equals the plain filter exactly when the identifier already has bit 29 |
| Filter.InversionIdempotent | filter.go:17-36 | inverting an inverted filter's identifier again changes nothing |
| Filter.NoRangeCheck | filter.go:10-36 | identifiers are neither range-checked nor masked |
| LinkStructs.MarshalBitTiming | canraw_linux.go:474-485 | 32 bytes; field i of the image is the i-th of bitrate, sample point, tq, prop seg, phase seg 1 and 2, sjw, brp |
| LinkStructs.UnmarshalBitTiming | canraw_linux.go:487-504 | fails iff the length is not 32, with the "CanBitTiming" size error; otherwise field i is the word at offset 4i |
| LinkStructs.BitTimingRoundTrip | canraw_linux.go:474-504 | decoding an encoded bit timing gives it back |
| LinkStructs.BitTimingCanonical | canraw_linux.go:474-504 | a 32-byte image re-encodes to itself after decoding |
| LinkStructs.MarshalCtrlMode | canraw_linux.go:567-572 | 8 bytes: the mask word, then the flags word |
| LinkStructs.UnmarshalCtrlMode | canraw_linux.go:574-585 | fails iff the length is not 8, with the "CanCtrlMode" size error; otherwise mask and flags are the two words |
| LinkStructs.CtrlModeRoundTrip | canraw_linux.go:567-585 | decoding an encoded control mode gives it back |
| LinkStructs.CtrlModeCanonical | canraw_linux.go:567-585 | an 8-byte image re-encodes to itself after decoding |
| LinkStructs.UnmarshalBitTimingConst | canraw_linux.go:510-528 | fails iff the length is not 48; otherwise the 16-byte name, then eight u32 limits |
| LinkStructs.BitTimingConstReadsLayout | canraw_linux.go:510-528 | decoding the kernel layout of any timing-constants value gives that value |
| LinkStructs.BitTimingConstCanonical | canraw_linux.go:510-528 | any 48-byte image is the layout of the value decoded from it |
| LinkStructs.UnmarshalClock | canraw_linux.go:534-544 | fails iff the length is not 4; otherwise the frequency word |
| LinkStructs.ClockReadsLayout | canraw_linux.go:534-544 | decoding the layout of a clock gives it back |
| LinkStructs.ClockCanonical | canraw_linux.go:534-544 | any 4-byte image is the layout of the decoded clock |
| LinkStructs.UnmarshalBusErrCounters | canraw_linux.go:550-561 | fails iff the length is not 4; otherwise the TX then RX 16-bit counters |
| LinkStructs.BusErrCountersReadsLayout | canraw_linux.go:550-561 | decoding the layout of the counters gives them back |
| LinkStructs.BusErrCountersCanonical | canraw_linux.go:550-561 | any 4-byte image is the layout of the decoded counters |
| LinkStructs.UnmarshalDevStats | canraw_linux.go:591-606 | fails iff the length is not 24; otherwise six statistics words in order |
| LinkStructs.DevStatsReadsLayout | canraw_linux.go:591-606 | decoding the layout of the statistics gives them back |
| LinkStructs.DevStatsCanonical | canraw_linux.go:591-606 | any 24-byte image is the layout of the decoded statistics |
| IfInfo.Marshal | canraw_linux.go:347-356 | 16 bytes: family, a zero reserved byte, device type, index bits, flags, change mask; the older `Device` API does the same at device_linux.go:120-129 |
| IfInfo.Unmarshal | canraw_linux.go:608-622 | fails iff the length is not 16, with the "ifInfoMsg" size error; byte 1 is ignored; the other fields are read back |
| IfInfo.RoundTrip | canraw_linux.go:347-356 | decoding an encoded link header gives it back |
| IfInfo.ReservedByteCleared | canraw_linux.go:608-622 | re-encoding a decoded header reproduces the input with the reserved byte zeroed |
| LinkInfo.TrimNul | canraw_linux.go:381 | the string read from an attribute is its payload with every trailing NUL removed, and nothing else |
| LinkInfo.DecodeAppend | canraw_linux.go:438-459 | a decode loop over a concatenation runs the second part from the first part's result, and an error in the first part ends it |
| LinkInfo.DataStep | canraw_linux.go:438-459 | a CAN attribute is accepted iff it is unknown or has its structure's exact size; the name and the statistics are never touched; unknown types change nothing |
| LinkInfo.DataStepStoresPayload | canraw_linux.go:441-453 | a well-sized CAN attribute replaces only its own structure, with the value whose kernel layout is the attribute's payload |
| LinkInfo.DecodeData | canraw_linux.go:438-459 | `Info.decodeData` succeeds iff every CAN attribute is well sized |
| LinkInfo.DecodeDataOk | canraw_linux.go:438-459 | the CAN attributes decode iff every one of them is well sized |
| LinkInfo.DecodeDataFirstError | canraw_linux.go:440-457 | the error reported is the size error of the first ill-sized attribute |
| LinkInfo.LinkInfoStep | canraw_linux.go:376-397 | a kind attribute passes, changing nothing, iff its string is "can" or "vcan", else "not a CAN interface"; a data attribute is malformed when it does not parse and otherwise is the CAN-attribute decode of its children, error included; the statistics attribute is accepted iff it is 24 bytes and changes only the statistics; other types change nothing |
| LinkInfo.XstatsStoresPayload | canraw_linux.go:387-393 | the statistics attribute is accepted iff it is 24 bytes, else the "CanDevStats" size error; it replaces only the statistics, with the value whose layout is its payload |
| LinkInfo.LinkInfoStepOk | canraw_linux.go:376-397 | one step of `Info.decode` succeeds iff the attribute is a CAN kind, CAN data that parses with every attribute well sized, 24-byte statistics, or of another type |
| LinkInfo.DecodeLinkInfo | canraw_linux.go:376-397 | `Info.decode` succeeds iff every attribute under IFLA_LINKINFO is accepted in that sense |
| LinkInfo.DecodeLinkInfoOk | canraw_linux.go:376-397 | the link-info loop succeeds iff every attribute is accepted, proved over the list |
| LinkInfo.ForeignKindRejected | canraw_linux.go:380-384 | once a non-CAN kind is reached the decode fails, whatever follows |
| LinkInfo.EthernetRejected | canraw_linux.go:380-384 | a link of kind "eth" is rejected |
| LinkInfo.UnknownSkipped | canraw_linux.go:376-459 | attributes of unknown type are skipped at all three levels; under IFLA_LINKINFO that is every type other than kind (1), data (2) and statistics (3) |
| LinkInfo.LinkInfoFirstSizeError | canraw_linux.go:376-397 | after a CAN kind, a data attribute holding an ill-sized CAN attribute ends the link-info decode with the size error of the first such attribute, whatever follows |
| LinkInfo.ReplyReportsFirstSizeError | canraw_linux.go:403-430 | a CAN reply whose IFLA_INFO_DATA holds an ill-sized CAN attribute fails with the size error of the first such attribute |
| LinkInfo.TopStep | canraw_linux.go:417-425 | the name attribute sets the device name to its NUL-trimmed string; a link-info attribute is malformed when it does not parse and otherwise is the link-info decode of its children, error included; others change nothing |
| LinkInfo.DecodeReply | canraw_linux.go:403-430 | unparsable attributes fail first, then a device type other than ARPHRD_CAN (280), then the attribute decode, whose error is the result; on success the description is the one the attributes decode to and the header is the decoded first 16 bytes |
| LinkInfo.EncodeData | canraw_linux.go:432-436 | `encodeData` writes two plain attributes, the bit timing and then the control mode, whose payloads decode back to the description's bit timing and control mode |
| LinkInfo.Encode | canraw_linux.go:370-374 | `Info.encode` writes the kind "can" followed by one NUL, which the kind check trims back to "can", then the CAN attributes nested under IFLA_INFO_DATA |
| LinkInfo.EncodeDecode | canraw_linux.go:370-374 | what `Info.encode` produces decodes over any description to that description with only the bit timing and control mode replaced |
| LinkInfo.EncodeDataDecodes | canraw_linux.go:432-436 | the two CAN attributes `encodeData` writes read back as its bit timing and control mode |
| LinkInfo.SentKindPasses | canraw_linux.go:371 | the NUL-terminated "can" the encoder writes passes the decoder's kind check |
| LinkInfo.LinkInfoAttrDecodes | canraw_linux.go:143-149 | the IFLA_LINKINFO attribute a setter appends is read by the top-level loop as its bit timing and control mode |
| Device.NewRequest | canraw_linux.go:288-298 | the header has the given type and exactly the request and acknowledge flags; the payload is the marshalled link header and decodes back to it; the older `Device` API does the same at device_linux.go:105-115 |
| Device.SetUpRequest | canraw_linux.go:50-57 | an RTM_NEWLINK request with request and acknowledge flags whose payload is the marshalled link header (reserved byte zero) of family 0, type 0, the interface index, flags IFF_UP and change mask IFF_UP; the older `Device` API does the same at device_linux.go:38-43 |
| Device.SetDownRequest | canraw_linux.go:78-85 | the same request with flags 0 and change mask IFF_UP; the older `Device` API does the same at device_linux.go:65-70 |
| Device.UpDownDifferOnlyInFlag | canraw_linux.go:50-85 | the up and down requests agree in every byte except the low flags byte, which is 1 for up and 0 for down |
| Device.CheckReplies | canraw_linux.go:64-66 | the exchange succeeds iff there is at most one reply; otherwise the error carries the reply count; the older `Device` API does the same at device_linux.go:52-54 |
| Device.GetLinkRequest | canraw_linux.go:307-311 | an RTM_GETLINK request with request and acknowledge flags whose payload is the marshalled link header (reserved byte zero) holding only the interface index |
| Device.UpdateInfo | canraw_linux.go:300-328 | more than one reply is an error carrying the count; a single reply is decoded as a link description |
| Device.IsUp | canraw_linux.go:98-107 | succeeds iff the link read succeeds, passes its error through, and is true iff the link flags have IFF_UP |
| Device.IsUpReadsFlags | canraw_linux.go:98-107 | a CAN link reported with a header reads as up exactly when that header has IFF_UP |
| Device.GetInfo | canraw_linux.go:110-116 | succeeds iff the link read succeeds, passes its error through, and is the decoded link description |
| Device.Bitrate | canraw_linux.go:119-125 | succeeds iff the link read succeeds, passes its error through, and is the bitrate of the decoded bit timing |
| Device.GetInfoDecodesReply | canraw_linux.go:110-116 | for a single reply about a CAN link, `Info` is exactly the decode of its attributes into a zero description, error included |
| Device.ReadsWhatIsReported | canraw_linux.go:110-125 | a reply carrying a name and the IFLA_LINKINFO built from a description reads back as that name (NUL-trimmed), that bit timing and control mode, and zero elsewhere; `Bitrate` is that bitrate |
| Device.InitSetParameters | canraw_linux.go:330-342 | fails with the link read's error; otherwise the current bitrate and control mode, with every other field zero |
| Device.WithListenOnly | canraw_linux.go:228 | ORing in CAN_CTRLMODE_LISTENONLY sets bit 1 and keeps bit 0 and the bits above |
| Device.ListenOnlyUpdate | canraw_linux.go:227-233 | the mask always gains the listen-only bit; turning the mode on sets it in the flags and keeps the other flags; turning it off zeroes all flags |
| Device.ListenOnlyIdempotent | canraw_linux.go:227-233 | applying the update twice equals applying it once |
| Device.ListenOnlyKeepsSetMode | canraw_linux.go:227-230 | turning the mode on leaves a control mode that already selects and sets it unchanged |
| Device.SetBitrateRequest | canraw_linux.go:128-165 | succeeds iff the parameter read succeeds and otherwise fails with its error; an RTM_NEWLINK request with request and acknowledge flags and the marshalled link header naming only the interface, carrying exactly one IFLA_LINKINFO attribute: the encoding of a description holding only the new bitrate and the current control mode, which begins with the kind "can" and its NUL |
| Device.SetBitrateSends | canraw_linux.go:128-165 | what is sent reads back as a bit timing holding only the new bitrate, plus the current control mode, and changes nothing else |
| Device.SetListenOnlyRequest | canraw_linux.go:212-258 | succeeds iff the parameter read succeeds and otherwise fails with its error; an RTM_NEWLINK request with request and acknowledge flags and the marshalled link header naming only the interface, carrying exactly one IFLA_LINKINFO attribute: the encoding of a description holding only the current bitrate and the listen-only update of the current control mode, which begins with the kind "can" and its NUL |
| Device.SetListenOnlySends | canraw_linux.go:212-258 | what is sent reads back as the current bitrate only and the current control mode after the listen-only update, over any receiver description whose other fields stay unchanged; the listen-only bit is selected in the mask and set in the flags iff the mode is on |

## Left out

- Sockets and I/O are not modelled: `Init`, `Dial`, `SetLoopback`, `SetFilter`, `SetRecvTimeout`, `SetSendTimeout`, `SendFrame`, `RcvFrame`, `Close`, `netlink.Dial` and `Execute`. A request is modelled as the message that would be sent. The replies of an exchange are a parameter.
- The netlink attribute wire format (length-type-value records, 4-byte alignment, the nested flag bit) belongs to the netlink library and is not modelled. A received attribute carries its parsed nested list; a sent attribute is a `LinkInfo.Node` tree.
- LinkInfo.AsReceived: a nested attribute's own payload bytes are given as empty, because the decoder reads such an attribute only through its children.
- `nlenc` uses host byte order. The model fixes it to little-endian, the order `binary.LittleEndian` uses in the same encoders.
- CanFrame.Marshal: the error result of `binary.Write` is not modelled. Writing a fixed-size struct into a `bytes.Buffer` does not fail.
- The error result of `newRequest` and of `AttributeEncoder.Encode` is not modelled. Neither can fail for these inputs.
- Error values are error kinds. The text that `fmt.Errorf` wraps around them is not kept.
- LinkInfo.DecodeReply: requires at least 16 bytes, because Go slices `rd[:16]` without a check and panics on a shorter reply.
- Device.UpdateInfo: requires at least one reply, and 16 bytes in a single reply, because Go indexes `res[0]` without a check.
- `ifInfoMsg.unmarshalBinary`'s error inside `respondData.unmarshalBinary` cannot happen, because the slice always has 16 bytes. The model does not represent it.
- The kernel's handling of the sent requests is outside the library and is not modelled.
- `demo/main.go` is modelled only through the frame it sends (`FixedFrame.DemoVector`).
- `RcvFrame` passes the frame decoder only a 16-byte read (canraw_linux.go:274-276), but the decoder itself accepts 16 or more bytes and ignores the rest; the model follows the decoder.

=== FILE: bytes.dfy ===
/** Fixed-width integers and their little-endian byte encodings.

    Go's `uint8`, `uint16`, `uint32` and `int32` are bounded integers here.
    A bit of a word is read with a division and a remainder by a power of
    two, and ORing a single-bit constant into a word adds the bit when it is
    clear.  The netlink helpers (`nlenc`) use host byte order; this model
    fixes it to little endian, the order `binary.LittleEndian` uses
    everywhere else. */
module Bytes {

  const TwoTo31: int := 0x8000_0000
  const TwoTo32: int := 0x1_0000_0000

  type byte = x: int | 0 <= x < 0x100
  type u16 = x: int | 0 <= x < 0x1_0000
  type u32 = x: int | 0 <= x < 0x1_0000_0000
  type i32 = x: int | -0x8000_0000 <= x < 0x8000_0000

  /** `n` zero bytes. */
  function Zeros(n: nat): (r: seq<byte>)
    ensures |r| == n
    ensures forall i :: 0 <= i < n ==> r[i] == 0
  {
    seq(n, _ => 0)
  }

  /** A slice of a prefix is the same slice of the whole. */
  lemma SliceOfPrefix<T>(s: seq<T>, k: nat, i: nat, j: nat)
    requires i <= j <= k <= |s|
    ensures s[..k][i..j] == s[i..j]
  {
  }

  /** A sequence is its prefix followed by its suffix. */
  lemma SplitAt<T>(s: seq<T>, k: nat)
    requires k <= |s|
    ensures s == s[..k] + s[k..]
  {
  }

  // ---------------------------------------------------------------------
  // 16-bit words

  /** `binary.LittleEndian.PutUint16` / `AppendUint16`: low byte first. */
  function PutU16(h: u16): (r: seq<byte>)
    ensures |r| == 2
  {
    [(h % 0x100) as byte, (h / 0x100) as byte]
  }

  /** `binary.LittleEndian.Uint16` / `nlenc.Uint16`. */
  function GetU16(s: seq<byte>): u16
    requires |s| == 2
  {
    s[0] as int + 0x100 * s[1] as int
  }

  /** Decoding an encoded 16-bit word gives it back. */
  lemma U16RoundTrip(h: u16)
    ensures GetU16(PutU16(h)) == h
  {
  }

  /** Two bytes are determined by the word they encode. */
  lemma U16Canonical(s: seq<byte>)
    requires |s| == 2
    ensures PutU16(GetU16(s)) == s
  {
    assert s == [s[0], s[1]];
  }

  // ---------------------------------------------------------------------
  // 32-bit words

  /** `binary.LittleEndian.PutUint32` / `AppendUint32`: low byte first. */
  function PutU32(w: u32): (r: seq<byte>)
    ensures |r| == 4
  {
    [(w % 0x100) as byte, ((w / 0x100) % 0x100) as byte,
     ((w / 0x1_0000) % 0x100) as byte, (w / 0x100_0000) as byte]
  }

  /** `binary.LittleEndian.Uint32` / `nlenc.Uint32`. */
  function GetU32(s: seq<byte>): u32
    requires |s| == 4
  {
    s[0] as int + 0x100 * s[1] as int + 0x1_0000 * s[2] as int + 0x100_0000 * s[3] as int
  }

  /** Decoding an encoded 32-bit word gives it back. */
  lemma U32RoundTrip(w: u32)
    ensures GetU32(PutU32(w)) == w
  {
    var q1 := w / 0x100;
    var q2 := q1 / 0x100;
    var q3 := q2 / 0x100;
    assert w == w % 0x100 + 0x100 * q1;
    assert q1 == q1 % 0x100 + 0x100 * q2;
    assert q2 == q2 % 0x100 + 0x100 * q3;
    HalfWords(w, w % 0x100 + 0x100 * (q1 % 0x100), q2);
    TopByte(w, w % 0x100 + 0x100 * (q1 % 0x100) + 0x1_0000 * (q2 % 0x100), q3);
  }

  /** Four bytes are determined by the word they encode. */
  lemma U32Canonical(s: seq<byte>)
    requires |s| == 4
    ensures PutU32(GetU32(s)) == s
  {
    var w := GetU32(s);
    ByteDigits(w, s[0], s[1] as int + 0x100 * s[2] as int + 0x1_0000 * s[3] as int);
    ByteDigits(w / 0x100, s[1], s[2] as int + 0x100 * s[3] as int);
    HalfWords(w, s[0] as int + 0x100 * s[1] as int, s[2] as int + 0x100 * s[3] as int);
    ByteDigits(w / 0x1_0000, s[2], s[3]);
    TopByte(w, s[0] as int + 0x100 * s[1] as int + 0x1_0000 * s[2] as int, s[3]);
    assert s == [s[0], s[1], s[2], s[3]];
  }

  /** The low byte and the rest of `lo + 0x100 * hi`. */
  lemma ByteDigits(x: int, lo: byte, hi: int)
    requires x == lo + 0x100 * hi
    ensures x % 0x100 == lo && x / 0x100 == hi
  {
  }

  /** The high half of `lo + 0x1_0000 * hi`. */
  lemma HalfWords(x: int, lo: int, hi: int)
    requires 0 <= lo < 0x1_0000 && x == lo + 0x1_0000 * hi
    ensures x / 0x1_0000 == hi
  {
  }

  /** The top byte of `lo + 0x100_0000 * hi`. */
  lemma TopByte(x: int, lo: int, hi: int)
    requires 0 <= lo < 0x100_0000 && x == lo + 0x100_0000 * hi
    ensures x / 0x100_0000 == hi
  {
  }

  // ---------------------------------------------------------------------
  // Signed and unsigned views of 32 bits

  /** Go's `uint32(x)` for an `int32` x: the same two's-complement bits. */
  function U32Of(x: i32): (w: u32)
    ensures x >= 0 ==> w == x
    ensures x < 0 ==> w == x + TwoTo32
  {
    if x < 0 then x + TwoTo32 else x
  }

  /** `nlenc.Int32`: the bits of `w` read as two's complement. */
  function I32Of(w: u32): (x: i32)
    ensures w < TwoTo31 ==> x == w
    ensures w >= TwoTo31 ==> x == w - TwoTo32
  {
    if w < TwoTo31 then w else w - TwoTo32
  }

  /** The two views are inverse to each other. */
  lemma SignedViewsInverse(x: i32, w: u32)
    ensures I32Of(U32Of(x)) == x
    ensures U32Of(I32Of(w)) == w
  {
  }

  /** Go's `int32(n)` for an `int` n: the low 32 bits of n, read as two's
      complement, so an index past the `int32` range wraps. */
  function ToInt32(n: int): (x: i32)
    ensures (x - n) % TwoTo32 == 0
    ensures -TwoTo31 <= n < TwoTo31 ==> x == n
  {
    I32Of(n % TwoTo32)
  }

  // ---------------------------------------------------------------------
  // Structures made of consecutive 32-bit fields

  /** The fields `ws`, each as a little-endian u32, at consecutive 4-byte offsets. */
  function PackU32s(ws: seq<u32>): (r: seq<byte>)
    ensures |r| == 4 * |ws|
    ensures forall i :: 0 <= i < |ws| ==> r[4 * i .. 4 * i + 4] == PutU32(ws[i])
  {
    if ws == [] then []
    else
      var rest := PackU32s(ws[1..]);
      var r := PutU32(ws[0]) + rest;
      assert r[..4] == PutU32(ws[0]);
      assert forall i :: 1 <= i < |ws| ==> r[4 * i .. 4 * i + 4] == rest[4 * (i - 1) .. 4 * (i - 1) + 4];
      r
  }

  /** The u32 field at index `i`, i.e. at byte offset `4 * i`. */
  function U32At(d: seq<byte>, i: nat): u32
    requires 4 * i + 4 <= |d|
  {
    GetU32(d[4 * i .. 4 * i + 4])
  }

  /** Every field of a byte image whose length is a multiple of four. */
  function UnpackU32s(d: seq<byte>): (ws: seq<u32>)
    requires |d| % 4 == 0
    ensures 4 * |ws| == |d|
    ensures forall i :: 0 <= i < |ws| ==> ws[i] == U32At(d, i)
    decreases |d|
  {
    if |d| == 0 then []
    else
      var rest := UnpackU32s(d[4..]);
      assert forall i :: 0 <= i < |rest| ==> d[4..][4 * i .. 4 * i + 4] == d[4 * (i + 1) .. 4 * (i + 1) + 4];
      [GetU32(d[..4])] + rest
  }

  /** Reading field `i` of a packed image gives back the i-th word. */
  lemma PackU32sAt(ws: seq<u32>, i: nat)
    requires i < |ws|
    ensures U32At(PackU32s(ws), i) == ws[i]
  {
    U32RoundTrip(ws[i]);
  }

  /** Unpacking a packed image gives back the fields. */
  lemma {:induction false} UnpackPack(ws: seq<u32>)
    ensures UnpackU32s(PackU32s(ws)) == ws
  {
    var p := PackU32s(ws);
    var r := UnpackU32s(p);
    forall i | 0 <= i < |ws|
      ensures r[i] == ws[i]
    {
      PackU32sAt(ws, i);
    }
  }

  /** A byte image whose length is a multiple of four is the packing of its fields. */
  lemma {:induction false} PackUnpack(d: seq<byte>)
    requires |d| % 4 == 0
    ensures PackU32s(UnpackU32s(d)) == d
    decreases |d|
  {
    if |d| > 0 {
      PackUnpack(d[4..]);
      assert UnpackU32s(d)[1..] == UnpackU32s(d[4..]);
      U32Canonical(d[..4]);
      assert d == d[..4] + d[4..];
    }
  }
}

=== FILE: can_id.dfy ===
/** The identifier word of a CAN frame (Linux `linux/can.h`): the numeric
    identifier in the low 29 bits and three frame-class flags above it. */
module CanId {
  import opened Bytes

  const EffFlag: u32 := 0x8000_0000   // CAN_EFF_FLAG: extended frame format (bit 31)
  const RtrFlag: u32 := 0x4000_0000   // CAN_RTR_FLAG: remote transmission request (bit 30)
  const ErrFlag: u32 := 0x2000_0000   // CAN_ERR_FLAG: error frame (bit 29)

  const SffMask: u32 := 0x0000_07FF   // CAN_SFF_MASK: standard 11-bit identifier
  const EffMask: u32 := 0x1FFF_FFFF   // CAN_EFF_MASK: extended 29-bit identifier

  /** CAN_INV_FILTER: inverts an acceptance filter; it shares bit 29 with ErrFlag. */
  const InvFilter: u32 := 0x2000_0000

  /** The identifier bits of a word, `w & CAN_EFF_MASK`: bits 0 to 28.  This
      is also `w &^ (CAN_EFF_FLAG | CAN_RTR_FLAG | CAN_ERR_FLAG)`. */
  function Ident(w: u32): u32 {
    w % 0x2000_0000
  }

  /** `w & CAN_EFF_FLAG != 0`: bit 31. */
  predicate EffBit(w: u32) {
    w / 0x8000_0000 == 1
  }

  /** `w & CAN_RTR_FLAG != 0`: bit 30. */
  predicate RtrBit(w: u32) {
    (w / 0x4000_0000) % 2 == 1
  }

  /** `w & CAN_ERR_FLAG != 0`: bit 29 (CAN_INV_FILTER in a filter identifier). */
  predicate ErrBit(w: u32) {
    (w / 0x2000_0000) % 2 == 1
  }

  /** A word is determined by its identifier bits and its three flag bits. */
  lemma FieldsDetermine(a: u32, b: u32)
    requires Ident(a) == Ident(b)
    requires EffBit(a) == EffBit(b)
    requires RtrBit(a) == RtrBit(b)
    requires ErrBit(a) == ErrBit(b)
    ensures a == b
  {
    Fields(a);
    Fields(b);
  }

  /** A word is its identifier bits plus its three flag bits at their weights. */
  lemma Fields(w: u32)
    ensures w == Ident(w) + 0x2000_0000 * ((w / 0x2000_0000) % 2)
                 + 0x4000_0000 * ((w / 0x4000_0000) % 2) + 0x8000_0000 * (w / 0x8000_0000)
  {
    var q := w / 0x2000_0000;
    assert w == Ident(w) + 0x2000_0000 * q;
    assert q == q % 2 + 2 * ((q / 2) % 2) + 4 * (q / 4);
    Above(w, Ident(w) + 0x2000_0000 * (q % 2), q / 2, 0x4000_0000);
    Above(w, Ident(w) + 0x2000_0000 * (q % 2) + 0x4000_0000 * ((q / 2) % 2), q / 4, 0x8000_0000);
  }

  /** The quotient of `lo + m * hi` by `m` when `lo` is below `m`. */
  lemma Above(x: int, lo: int, hi: int, m: int)
    requires m == 0x4000_0000 || m == 0x8000_0000
    requires 0 <= lo < m && x == lo + m * hi
    ensures x / m == hi
  {
    if m == 0x4000_0000 {
      assert x == lo + 0x4000_0000 * hi;
    } else {
      assert x == lo + 0x8000_0000 * hi;
    }
  }

  /** `w | CAN_EFF_FLAG`: bit 31 set, every other bit kept. */
  function SetEff(w: u32): (r: u32)
    ensures EffBit(r)
    ensures Ident(r) == Ident(w) && RtrBit(r) == RtrBit(w) && ErrBit(r) == ErrBit(w)
  {
    if EffBit(w) then w else w + EffFlag
  }

  /** `w | CAN_RTR_FLAG`: bit 30 set, every other bit kept. */
  function SetRtr(w: u32): (r: u32)
    ensures RtrBit(r)
    ensures Ident(r) == Ident(w) && EffBit(r) == EffBit(w) && ErrBit(r) == ErrBit(w)
  {
    if RtrBit(w) then w else w + RtrFlag
  }

  /** `w | CAN_ERR_FLAG` (and `w | CAN_INV_FILTER`): bit 29 set, every other
      bit kept. */
  function SetErr(w: u32): (r: u32)
    ensures ErrBit(r)
    ensures Ident(r) == Ident(w) && EffBit(r) == EffBit(w) && RtrBit(r) == RtrBit(w)
  {
    if ErrBit(w) then w else w + ErrFlag
  }

  /** The word both frame encoders put on the wire: `id` with each flag ORed
      in when its boolean is set.  `id` itself is not masked, so identifier
      bits above bit 28 land on the flag positions. */
  function IdWord(id: u32, isExtended: bool, isRemote: bool, isError: bool): (w: u32)
    ensures Ident(w) == Ident(id)
    ensures EffBit(w) <==> isExtended || EffBit(id)
    ensures RtrBit(w) <==> isRemote || RtrBit(id)
    ensures ErrBit(w) <==> isError || ErrBit(id)
  {
    var a := if isExtended then SetEff(id) else id;
    var b := if isRemote then SetRtr(a) else a;
    if isError then SetErr(b) else b
  }

  /** For an identifier that fits in 29 bits, the word determines the
      identifier and each flag exactly. */
  lemma IdWordRecoverable(id: u32, isExtended: bool, isRemote: bool, isError: bool)
    requires id <= EffMask
    ensures var w := IdWord(id, isExtended, isRemote, isError);
      && Ident(w) == id
      && (EffBit(w) <==> isExtended)
      && (RtrBit(w) <==> isRemote)
      && (ErrBit(w) <==> isError)
  {
  }

  /** Every word is the identifier word of its own identifier bits and flags. */
  lemma IdWordSplit(w: u32)
    ensures IdWord(Ident(w), EffBit(w), RtrBit(w), ErrBit(w)) == w
  {
    var v := IdWord(Ident(w), EffBit(w), RtrBit(w), ErrBit(w));
    assert Ident(v) == Ident(Ident(w)) == Ident(w);
    assert EffBit(v) == EffBit(w) by {
      assert !EffBit(Ident(w));
    }
    assert RtrBit(v) == RtrBit(w) by {
      assert !RtrBit(Ident(w));
    }
    assert ErrBit(v) == ErrBit(w) by {
      assert !ErrBit(Ident(w));
    }
    FieldsDetermine(v, w);
  }
}

=== FILE: canframe.dfy ===
/** The slice-payload CAN frame and its codec for the Linux raw-socket
    `struct can_frame` (package canframe).

    Wire layout, 16 bytes, little endian:
      0..4   identifier word (identifier | flag bits)
      4      data length code
      5..8   padding, written zero
      8..16  payload, zero-filled past the data length */
module CanFrame {
  import opened Bytes
  import opened CanId
  import opened Results

  const FrameMaxDataLen: nat := 8
  const LinuxFrameLen: nat := 16

  /** A CAN frame as the application sees it.  `data` is unbounded: only the
      codec limits it to FrameMaxDataLen bytes.  The identifier and the three
      flags are independent fields. */
  datatype Frame = Frame(id: u32, data: seq<byte>, isExtended: bool, isRemote: bool, isError: bool)

  /** The zero value, the decode target the receive path starts from. */
  const Zero: Frame := Frame(0, [], false, false, false)

  /** The number of payload bytes a frame of `n` data bytes carries on the wire. */
  function Clamp(n: nat): (k: nat)
    ensures k <= FrameMaxDataLen
    ensures k == n || (n > FrameMaxDataLen && k == FrameMaxDataLen)
  {
    if n < FrameMaxDataLen then n else FrameMaxDataLen
  }

  /** The fixed payload array after `copy(frame.Data[:], data)` into a zeroed array. */
  function Payload(data: seq<byte>): (p: seq<byte>)
    ensures |p| == FrameMaxDataLen
    ensures forall i :: 0 <= i < FrameMaxDataLen ==> p[i] == if i < |data| then data[i] else 0
  {
    if |data| >= FrameMaxDataLen then data[..FrameMaxDataLen]
    else data + Zeros(FrameMaxDataLen - |data|)
  }

  /** `Frame.Marshal`: the 16-byte kernel image of `f`.  An oversized payload
      is silently cut to its first eight bytes. */
  function Marshal(f: Frame): (r: seq<byte>)
    ensures |r| == LinuxFrameLen
    ensures var w := GetU32(r[..4]);
      && Ident(w) == Ident(f.id)
      && (EffBit(w) <==> f.isExtended || EffBit(f.id))
      && (RtrBit(w) <==> f.isRemote || RtrBit(f.id))
      && (ErrBit(w) <==> f.isError || ErrBit(f.id))
    ensures r[4] as int == Clamp(|f.data|)
    ensures r[5] == 0 && r[6] == 0 && r[7] == 0
    ensures forall i :: 0 <= i < FrameMaxDataLen ==> r[8 + i] == if i < |f.data| then f.data[i] else 0
  {
    var w := IdWord(f.id, f.isExtended, f.isRemote, f.isError);
    var r := PutU32(w) + [Clamp(|f.data|) as byte] + Zeros(3) + Payload(f.data);
    assert r[..4] == PutU32(w);
    U32RoundTrip(w);
    r
  }

  /** `Frame.Unmarshal` into the frame `target`.  Fewer than 16 bytes fail and
      leave the target as it was; bytes past the 16th are not read.  The
      identifier loses bits 29 to 31; a flag is set when its bit is, but a
      flag already set in `target` is never cleared. */
  function Unmarshal(target: Frame, bs: seq<byte>): (r: Result<Frame>)
    ensures r.Err? <==> |bs| < LinuxFrameLen
    ensures r.Err? ==> r.error == (if |bs| == 0 then EndOfInput else UnexpectedEnd(|bs|))
    ensures r.Ok? ==> var f := r.value; var w := GetU32(bs[..4]);
      && f.id == Ident(w)
      && (f.isExtended <==> target.isExtended || EffBit(w))
      && (f.isRemote <==> target.isRemote || RtrBit(w))
      && (f.isError <==> target.isError || ErrBit(w))
      && |f.data| == Clamp(bs[4] as int)
      && f.data == bs[8 .. 8 + |f.data|]
  {
    if |bs| == 0 then Err(EndOfInput)
    else if |bs| < LinuxFrameLen then Err(UnexpectedEnd(|bs|))
    else
      var w := GetU32(bs[..4]);
      var n := Clamp(bs[4] as int);
      Ok(Frame(
        Ident(w),
        bs[8 .. 8 + n],
        if EffBit(w) then true else target.isExtended,
        if RtrBit(w) then true else target.isRemote,
        if ErrBit(w) then true else target.isError))
  }

  /** The identifier and flags a fresh frame decodes to from the image of `f`. */
  lemma DecodedHeader(f: Frame)
    ensures Unmarshal(Zero, Marshal(f)).Ok?
    ensures var g := Unmarshal(Zero, Marshal(f)).value;
      && g.id == Ident(f.id)
      && (g.isExtended <==> f.isExtended || EffBit(f.id))
      && (g.isRemote <==> f.isRemote || RtrBit(f.id))
      && (g.isError <==> f.isError || ErrBit(f.id))
  {
  }

  /** The payload a fresh frame decodes to from the image of `f`. */
  lemma DecodedPayload(f: Frame)
    ensures Unmarshal(Zero, Marshal(f)).Ok?
    ensures Unmarshal(Zero, Marshal(f)).value.data == f.data[..Clamp(|f.data|)]
  {
    var bs := Marshal(f);
    var n := Clamp(|f.data|);
    assert Clamp(bs[4] as int) == n;
    assert bs[8 .. 8 + n] == f.data[..n];
  }

  /** What a fresh frame decodes to from the image of any frame: the
      identifier without bits 29 to 31, the first eight data bytes at most,
      and each flag or the identifier bit it collides with. */
  lemma DecodeMarshalled(f: Frame)
    ensures Unmarshal(Zero, Marshal(f)) == Ok(Frame(
      Ident(f.id),
      f.data[..Clamp(|f.data|)],
      f.isExtended || EffBit(f.id),
      f.isRemote || RtrBit(f.id),
      f.isError || ErrBit(f.id)))
  {
    DecodedHeader(f);
    DecodedPayload(f);
  }

  /** Round trip: a frame with a 29-bit identifier and at most eight data
      bytes, decoded into a fresh frame, comes back unchanged. */
  lemma RoundTrip(f: Frame)
    requires Ident(f.id) == f.id
    requires |f.data| <= FrameMaxDataLen
    ensures Unmarshal(Zero, Marshal(f)) == Ok(f)
  {
    DecodeMarshalled(f);
    assert f.data[..|f.data|] == f.data;
  }

  /** Silent truncation: a longer payload goes out as its first eight bytes. */
  lemma Truncation(f: Frame)
    requires Ident(f.id) == f.id
    requires |f.data| > FrameMaxDataLen
    ensures Marshal(f)[4] == 8
    ensures Marshal(f)[8..] == f.data[..FrameMaxDataLen]
    ensures Unmarshal(Zero, Marshal(f)) == Ok(f.(data := f.data[..FrameMaxDataLen]))
  {
    DecodeMarshalled(f);
  }

  /** Only the first 16 bytes of the input are read. */
  lemma IgnoresTrailingBytes(target: Frame, bs: seq<byte>)
    requires |bs| >= LinuxFrameLen
    ensures Unmarshal(target, bs) == Unmarshal(target, bs[..LinuxFrameLen])
  {
    var t := bs[..LinuxFrameLen];
    var n := Clamp(bs[4] as int);
    SliceOfPrefix(bs, LinuxFrameLen, 0, 4);
    SliceOfPrefix(bs, LinuxFrameLen, 8, 8 + n);
    assert t[4] == bs[4];
  }

  /** The first four bytes of an image are the identifier word. */
  lemma MarshalWordBytes(f: Frame)
    ensures Marshal(f)[..4] == PutU32(IdWord(f.id, f.isExtended, f.isRemote, f.isError))
  {
  }

  /** The identifier word of a decoded image is written back unchanged. */
  lemma CanonicalWord(bs: seq<byte>)
    requires |bs| == LinuxFrameLen
    ensures Unmarshal(Zero, bs).Ok?
    ensures Marshal(Unmarshal(Zero, bs).value)[..4] == bs[..4]
  {
    var f := Unmarshal(Zero, bs).value;
    var w := GetU32(bs[..4]);
    assert f.id == Ident(w);
    assert f.isExtended == EffBit(w) && f.isRemote == RtrBit(w) && f.isError == ErrBit(w);
    IdWordSplit(w);
    MarshalWordBytes(f);
    U32Canonical(bs[..4]);
  }

  /** Past the identifier word, a canonical image is written back unchanged. */
  lemma CanonicalRest(bs: seq<byte>)
    requires |bs| == LinuxFrameLen
    requires bs[4] as int <= FrameMaxDataLen
    requires bs[5] == 0 && bs[6] == 0 && bs[7] == 0
    requires forall i :: 8 + bs[4] as int <= i < LinuxFrameLen ==> bs[i] == 0
    ensures Unmarshal(Zero, bs).Ok?
    ensures Marshal(Unmarshal(Zero, bs).value)[4..] == bs[4..]
  {
    var f := Unmarshal(Zero, bs).value;
    assert f.data == bs[8 .. 8 + bs[4] as int];
    MarshalTail(f);
    TailImage(bs);
  }

  /** Past the identifier word, an image is the length code, the padding and
      the payload array. */
  lemma MarshalTail(f: Frame)
    ensures Marshal(f)[4..] == [Clamp(|f.data|) as byte] + Zeros(3) + Payload(f.data)
  {
  }

  /** A canonical 16-byte image, from byte 4 on, is rebuilt from its length
      code and the payload that code selects. */
  lemma TailImage(bs: seq<byte>)
    requires |bs| == LinuxFrameLen
    requires bs[4] as int <= FrameMaxDataLen
    requires bs[5] == 0 && bs[6] == 0 && bs[7] == 0
    requires forall i :: 8 + bs[4] as int <= i < LinuxFrameLen ==> bs[i] == 0
    ensures var data := bs[8 .. 8 + bs[4] as int];
      [Clamp(|data|) as byte] + Zeros(3) + Payload(data) == bs[4..]
  {
    var data := bs[8 .. 8 + bs[4] as int];
    var t := [Clamp(|data|) as byte] + Zeros(3) + Payload(data);
    assert t[0] == bs[4];
    assert forall i :: 1 <= i < 12 ==> t[i] == bs[4 + i];
  }

  /** Conversely, a 16-byte image with zero padding, a length code of at most
      eight and zeros past the data is exactly the image of what it decodes to. */
  lemma CanonicalImage(bs: seq<byte>)
    requires |bs| == LinuxFrameLen
    requires bs[4] as int <= FrameMaxDataLen
    requires bs[5] == 0 && bs[6] == 0 && bs[7] == 0
    requires forall i :: 8 + bs[4] as int <= i < LinuxFrameLen ==> bs[i] == 0
    ensures Unmarshal(Zero, bs).Ok?
    ensures Marshal(Unmarshal(Zero, bs).value) == bs
  {
    var m := Marshal(Unmarshal(Zero, bs).value);
    CanonicalWord(bs);
    CanonicalRest(bs);
    SplitAt(m, 4);
    SplitAt(bs, 4);
  }

  /** Decoding into a frame that already has a flag set keeps the flag,
      whatever the image says: flags are only ever set, never cleared.  For
      instance a data frame decoded into a target with the error flag set
      comes back as an error frame. */
  lemma StaleFlagSurvives(target: Frame, bs: seq<byte>)
    requires |bs| >= LinuxFrameLen
    ensures Unmarshal(target, bs).Ok?
    ensures target.isExtended ==> Unmarshal(target, bs).value.isExtended
    ensures target.isRemote ==> Unmarshal(target, bs).value.isRemote
    ensures target.isError ==> Unmarshal(target, bs).value.isError
    ensures var f := Frame(0x20, [1], false, false, false);
      Unmarshal(f.(isError := true), Marshal(f)) == Ok(f.(isError := true))
  {
    RoundTrip(Frame(0x20, [1], false, false, false));
  }

  /** The end-to-end vector: an extended frame with identifier 0x20 and four
      data bytes. */
  lemma WireVector()
    ensures var f := Frame(0x20, [0x01, 0x02, 0x03, 0x55], true, false, false);
      && Marshal(f) == [0x20, 0x00, 0x00, 0x80, 0x04, 0x00, 0x00, 0x00,
                        0x01, 0x02, 0x03, 0x55, 0x00, 0x00, 0x00, 0x00]
      && Unmarshal(Zero, Marshal(f)) == Ok(f)
  {
    var f := Frame(0x20, [0x01, 0x02, 0x03, 0x55], true, false, false);
    RoundTrip(f);
  }
}

=== FILE: device.dfy ===
/** The netlink requests a CAN interface handle (`Can`, and the older
    `Device`) builds, and what it makes of the replies: bringing the link up
    and down, reading its state, and changing the bitrate and the
    listen-only mode.

    Opening the routing socket and exchanging messages are not modelled: a
    request is the message that would be sent, and the replies of an
    exchange are a parameter. */
module Device {
  import opened Bytes
  import opened Results
  import opened LinkStructs
  import IfInfo
  import LinkInfo

  /** Message types (linux/rtnetlink.h). */
  const RtmNewlink: u16 := 16
  const RtmGetlink: u16 := 18

  /** `netlink.Request | netlink.Acknowledge`: NLM_F_REQUEST (bit 0) and
      NLM_F_ACK (bit 2). */
  const RequestAck: u16 := 5

  /** IFF_UP: the interface is administratively up (bit 0 of the link flags). */
  const IffUp: u32 := 1

  /** CAN_CTRLMODE_LISTENONLY: bit 1 of the CAN control-mode words. */
  const CtrlModeListenOnly: u32 := 2

  datatype Header = Header(typ: u16, flags: u16)

  /** A request: the netlink header, the link header bytes, and the
      attributes appended after them. */
  datatype Message = Message(header: Header, data: seq<byte>, attrs: seq<LinkInfo.Node>)

  /** One reply to a request: its payload, and the attributes its bytes
      after the 16-byte link header parse into (None if they do not). */
  datatype Reply = Reply(data: seq<byte>, attrs: Option<seq<LinkInfo.Attr>>)

  // ---------------------------------------------------------------------
  // Requests

  /** `newRequest`: a request that asks for an acknowledgement and carries
      the link header `ifi`. */
  function NewRequest(typ: u16, ifi: IfInfo.IfInfoMsg): (r: Message)
    ensures r.header.typ == typ
    ensures r.header.flags == RequestAck
    ensures r.data == IfInfo.Marshal(ifi) && IfInfo.Unmarshal(r.data) == Ok(ifi)
    ensures r.attrs == []
  {
    IfInfo.RoundTrip(ifi);
    Message(Header(typ, RequestAck), IfInfo.Marshal(ifi), [])
  }

  /** The link header naming interface `index` (Go's `int32(Index)`) with
      the given flags and change mask; family and device type are zero. */
  function LinkHeader(index: int, flags: u32, change: u32): IfInfo.IfInfoMsg {
    IfInfo.IfInfoMsg(0, 0, ToInt32(index), flags, change)
  }

  /** `IsUp`'s test on the link flags: `flags & IFF_UP != 0`. */
  predicate UpFlag(flags: u32) {
    flags % 2 == 1
  }

  /** `SetUp`: an RTM_NEWLINK request whose change mask selects IFF_UP and
      whose flags set it. */
  function SetUpRequest(index: int): (r: Message)
    ensures r.header == Header(RtmNewlink, RequestAck) && r.attrs == []
    ensures IfInfo.Unmarshal(r.data) == Ok(IfInfo.IfInfoMsg(0, 0, ToInt32(index), IffUp, IffUp))
    ensures r.data == IfInfo.Marshal(LinkHeader(index, IffUp, IffUp))
  {
    NewRequest(RtmNewlink, LinkHeader(index, IffUp, IffUp))
  }

  /** `SetDown`: the same request with IFF_UP cleared in the flags. */
  function SetDownRequest(index: int): (r: Message)
    ensures r.header == Header(RtmNewlink, RequestAck) && r.attrs == []
    ensures IfInfo.Unmarshal(r.data) == Ok(IfInfo.IfInfoMsg(0, 0, ToInt32(index), 0, IffUp))
    ensures r.data == IfInfo.Marshal(LinkHeader(index, 0, IffUp))
  {
    NewRequest(RtmNewlink, LinkHeader(index, 0, IffUp))
  }

  /** The two requests differ in the IFF_UP flag and in nothing else. */
  lemma UpDownDifferOnlyInFlag(index: int)
    ensures SetUpRequest(index).header == SetDownRequest(index).header
    ensures var up := SetUpRequest(index).data;
            var down := SetDownRequest(index).data;
      && |up| == |down| == IfInfo.SizeOfIfInfoMsg
      && (forall i :: 0 <= i < IfInfo.SizeOfIfInfoMsg && i != 8 ==> up[i] == down[i])
      && up[8] == 1 && down[8] == 0
  {
  }

  /** The guard every exchange applies: more than one reply is an error. */
  function CheckReplies(count: nat): (r: Result<()>)
    ensures r.Ok? <==> count <= 1
    ensures r.Err? ==> r.error == TooManyReplies(count)
  {
    if count > 1 then Err(TooManyReplies(count)) else Ok(())
  }

  // ---------------------------------------------------------------------
  // Reading the link

  /** The RTM_GETLINK request `updateInfo` sends: the interface index, no
      flags and no change mask. */
  function GetLinkRequest(index: int): (r: Message)
    ensures r.header == Header(RtmGetlink, RequestAck) && r.attrs == []
    ensures IfInfo.Unmarshal(r.data) == Ok(IfInfo.IfInfoMsg(0, 0, ToInt32(index), 0, 0))
    ensures r.data == IfInfo.Marshal(LinkHeader(index, 0, 0))
  {
    NewRequest(RtmGetlink, LinkHeader(index, 0, 0))
  }

  /** `updateInfo`, given the replies to its RTM_GETLINK request: a single
      reply is decoded.  Go indexes the first reply and slices its first 16
      bytes without a check, so there must be one and it must be that long. */
  function UpdateInfo(replies: seq<Reply>): (r: Result<(LinkInfo.Info, IfInfo.IfInfoMsg)>)
    requires |replies| != 0
    requires |replies| == 1 ==> |replies[0].data| >= IfInfo.SizeOfIfInfoMsg
    ensures |replies| > 1 ==> r == Err(TooManyReplies(|replies|))
    ensures |replies| == 1 ==> r == LinkInfo.DecodeReply(replies[0].data, replies[0].attrs)
  {
    var _ :- CheckReplies(|replies|);
    LinkInfo.DecodeReply(replies[0].data, replies[0].attrs)
  }

  /** `IsUp`: whether the link header of the reply has IFF_UP set. */
  function IsUp(replies: seq<Reply>): (r: Result<bool>)
    requires |replies| != 0
    requires |replies| == 1 ==> |replies[0].data| >= IfInfo.SizeOfIfInfoMsg
    ensures r.Ok? <==> UpdateInfo(replies).Ok?
    ensures r.Err? ==> r.error == UpdateInfo(replies).error
    ensures r.Ok? ==> (r.value <==> UpFlag(UpdateInfo(replies).value.1.flags))
  {
    var (_, ifi) :- UpdateInfo(replies);
    Ok(ifi.flags % 2 == 1)
  }

  /** A CAN link reported with link header `m` reads as up exactly when
      `m` carries IFF_UP. */
  lemma IsUpReadsFlags(m: IfInfo.IfInfoMsg, attrs: seq<LinkInfo.Attr>)
    requires m.typ == LinkInfo.ArphrdCan
    requires LinkInfo.Decode(LinkInfo.TopStep, LinkInfo.ZeroInfo, attrs).Ok?
    ensures IsUp([Reply(IfInfo.Marshal(m), Some(attrs))]) == Ok(UpFlag(m.flags))
  {
    var d := IfInfo.Marshal(m);
    IfInfo.RoundTrip(m);
    assert d[..IfInfo.SizeOfIfInfoMsg] == d;
  }

  /** `Info()`: the decoded link description. */
  function GetInfo(replies: seq<Reply>): (r: Result<LinkInfo.Info>)
    requires |replies| != 0
    requires |replies| == 1 ==> |replies[0].data| >= IfInfo.SizeOfIfInfoMsg
    ensures r.Ok? <==> UpdateInfo(replies).Ok?
    ensures r.Err? ==> r.error == UpdateInfo(replies).error
    ensures r.Ok? ==> r.value == UpdateInfo(replies).value.0
  {
    var (info, _) :- UpdateInfo(replies);
    Ok(info)
  }

  /** `Bitrate`: the bitrate of the decoded bit timing. */
  function Bitrate(replies: seq<Reply>): (r: Result<u32>)
    requires |replies| != 0
    requires |replies| == 1 ==> |replies[0].data| >= IfInfo.SizeOfIfInfoMsg
    ensures r.Ok? <==> UpdateInfo(replies).Ok?
    ensures r.Err? ==> r.error == UpdateInfo(replies).error
    ensures r.Ok? ==> r.value == UpdateInfo(replies).value.0.bitTiming.bitrate
  {
    var info :- GetInfo(replies);
    Ok(info.bitTiming.bitrate)
  }

  /** A single reply about a CAN link is read as its attributes decoded
      into a zero description: `Info` is that description, and its errors
      are the decode's. */
  lemma GetInfoDecodesReply(m: IfInfo.IfInfoMsg, attrs: seq<LinkInfo.Attr>)
    requires m.typ == LinkInfo.ArphrdCan
    ensures GetInfo([Reply(IfInfo.Marshal(m), Some(attrs))]) ==
      LinkInfo.Decode(LinkInfo.TopStep, LinkInfo.ZeroInfo, attrs)
  {
    var d := IfInfo.Marshal(m);
    IfInfo.RoundTrip(m);
    assert d[..IfInfo.SizeOfIfInfoMsg] == d;
  }

  /** A reply carrying the interface name and the IFLA_LINKINFO a setter
      builds from `i` reads back as that name, `i`'s bit timing and control
      mode, and zero everywhere else; `Bitrate` is `i`'s bitrate. */
  lemma ReadsWhatIsReported(m: IfInfo.IfInfoMsg, name: seq<byte>, i: LinkInfo.Info)
    requires m.typ == LinkInfo.ArphrdCan
    ensures var reply := Reply(IfInfo.Marshal(m),
                               Some([LinkInfo.Attr(LinkInfo.IflaIfname, name, None),
                                     LinkInfo.AsReceived(LinkInfo.LinkInfoAttr(i))]));
      && GetInfo([reply]) ==
           Ok(LinkInfo.ZeroInfo.(devName := LinkInfo.TrimNul(name), bitTiming := i.bitTiming, ctrlMode := i.ctrlMode))
      && Bitrate([reply]) == Ok(i.bitTiming.bitrate)
  {
    var named := LinkInfo.ZeroInfo.(devName := LinkInfo.TrimNul(name));
    var attrs := [LinkInfo.Attr(LinkInfo.IflaIfname, name, None), LinkInfo.AsReceived(LinkInfo.LinkInfoAttr(i))];
    GetInfoDecodesReply(m, attrs);
    LinkInfo.LinkInfoAttrDecodes(i, named);
    assert LinkInfo.TopStep(LinkInfo.ZeroInfo, attrs[0]) == Ok(named);
    LinkInfo.DecodeTwo(LinkInfo.TopStep, LinkInfo.ZeroInfo, attrs);
  }

  // ---------------------------------------------------------------------
  // Changing parameters

  /** Parameters that carry only a bitrate and a control mode: every other
      field of the description is zero. */
  predicate OnlyBitrateAndCtrlMode(p: LinkInfo.Info) {
    p == LinkInfo.ZeroInfo.(bitTiming := LinkInfo.ZeroBitTiming.(bitrate := p.bitTiming.bitrate),
                            ctrlMode := p.ctrlMode)
  }

  /** `initSetParameters`: the current bitrate and control mode, and
      nothing else of the current state. */
  function InitSetParameters(replies: seq<Reply>): (r: Result<LinkInfo.Info>)
    requires |replies| != 0
    requires |replies| == 1 ==> |replies[0].data| >= IfInfo.SizeOfIfInfoMsg
    ensures r.Ok? <==> UpdateInfo(replies).Ok?
    ensures r.Err? ==> r.error == UpdateInfo(replies).error
    ensures r.Ok? ==> OnlyBitrateAndCtrlMode(r.value)
    ensures r.Ok? ==> var cur := UpdateInfo(replies).value.0;
      r.value.bitTiming.bitrate == cur.bitTiming.bitrate && r.value.ctrlMode == cur.ctrlMode
  {
    var info :- GetInfo(replies);
    Ok(LinkInfo.ZeroInfo.(bitTiming := LinkInfo.ZeroBitTiming.(bitrate := info.bitTiming.bitrate),
                          ctrlMode := info.ctrlMode))
  }

  /** Bit 1 of a control-mode word: the listen-only mode. */
  predicate ListenOnlyBit(w: u32) {
    (w / 2) % 2 == 1
  }

  /** `w | CAN_CTRLMODE_LISTENONLY`. */
  function WithListenOnly(w: u32): (r: u32)
    ensures ListenOnlyBit(r)
    ensures r % 2 == w % 2 && r / 4 == w / 4
  {
    if ListenOnlyBit(w) then w else w + CtrlModeListenOnly
  }

  /** A word is determined by its bit 0, its bit 1 and the bits above them. */
  lemma CtrlWordDetermined(a: u32, b: u32)
    requires a % 2 == b % 2 && ListenOnlyBit(a) == ListenOnlyBit(b) && a / 4 == b / 4
    ensures a == b
  {
    LowBits(a);
    LowBits(b);
  }

  /** A word is four times its bits above bit 1, plus bit 1 twice, plus bit 0. */
  lemma LowBits(x: nat)
    ensures x == 4 * (x / 4) + 2 * ((x / 2) % 2) + x % 2
  {
    var q := x / 2;
    assert x == 2 * q + x % 2;
    assert q == 2 * (q / 2) + q % 2;
    assert q / 2 == x / 4;
  }

  /** The control-mode update of `SetListenOnlyMode`: the listen-only bit is
      always selected in the mask; turning the mode on sets it in the flags,
      turning it off clears every flag. */
  function ListenOnlyUpdate(cm: CtrlMode, mode: bool): (r: CtrlMode)
    ensures ListenOnlyBit(r.mask) && r.mask % 2 == cm.mask % 2 && r.mask / 4 == cm.mask / 4
    ensures mode ==> ListenOnlyBit(r.flags) && r.flags % 2 == cm.flags % 2 && r.flags / 4 == cm.flags / 4
    ensures !mode ==> r.flags == 0
  {
    if mode then CtrlMode(WithListenOnly(cm.mask), WithListenOnly(cm.flags))
    else CtrlMode(WithListenOnly(cm.mask), 0)
  }

  /** Applying the update twice is applying it once. */
  lemma ListenOnlyIdempotent(cm: CtrlMode, mode: bool)
    ensures ListenOnlyUpdate(ListenOnlyUpdate(cm, mode), mode) == ListenOnlyUpdate(cm, mode)
  {
    var once := ListenOnlyUpdate(cm, mode);
    CtrlWordDetermined(WithListenOnly(once.mask), once.mask);
    if mode {
      CtrlWordDetermined(WithListenOnly(once.flags), once.flags);
    }
  }

  /** The update leaves a control mode that already selects and sets the
      listen-only bit unchanged when turning the mode on. */
  lemma ListenOnlyKeepsSetMode(cm: CtrlMode)
    requires ListenOnlyBit(cm.mask) && ListenOnlyBit(cm.flags)
    ensures ListenOnlyUpdate(cm, true) == cm
  {
    CtrlWordDetermined(WithListenOnly(cm.mask), cm.mask);
    CtrlWordDetermined(WithListenOnly(cm.flags), cm.flags);
  }

  /** A setter's request: a single IFLA_LINKINFO attribute whose first
      nested attribute is the kind "can" as a NUL-terminated string, the
      kind the kernel needs before it accepts CAN data. */
  predicate SendsCanLinkInfo(m: Message) {
    && |m.attrs| == 1
    && m.attrs[0].Nest? && m.attrs[0].tag == LinkInfo.IflaLinkinfo
    && |m.attrs[0].kids| >= 1
    && m.attrs[0].kids[0] == LinkInfo.Leaf(LinkInfo.IflaInfoKind, LinkInfo.CanLinkType + [0])
  }

  /** The link header of the setters: the interface index and nothing else. */
  function SetterHeader(index: int): IfInfo.IfInfoMsg {
    LinkHeader(index, 0, 0)
  }

  /** `SetBitrate`'s request: the current parameters with the bitrate
      replaced, sent as IFLA_LINKINFO after the link header. */
  function SetBitrateRequest(index: int, bitrate: u32, replies: seq<Reply>): (r: Result<Message>)
    requires |replies| != 0
    requires |replies| == 1 ==> |replies[0].data| >= IfInfo.SizeOfIfInfoMsg
    ensures r.Ok? <==> UpdateInfo(replies).Ok?
    ensures r.Err? ==> r.error == UpdateInfo(replies).error
    ensures r.Ok? ==> r.value.header == Header(RtmNewlink, RequestAck)
    ensures r.Ok? ==> r.value.data == IfInfo.Marshal(SetterHeader(index))
    ensures r.Ok? ==> var cur := UpdateInfo(replies).value.0;
      r.value.attrs == [LinkInfo.LinkInfoAttr(LinkInfo.ZeroInfo.(
        bitTiming := LinkInfo.ZeroBitTiming.(bitrate := bitrate), ctrlMode := cur.ctrlMode))]
    ensures r.Ok? ==> SendsCanLinkInfo(r.value)
  {
    var req := NewRequest(RtmNewlink, SetterHeader(index));
    var info :- InitSetParameters(replies);
    var info := info.(bitTiming := info.bitTiming.(bitrate := bitrate));
    Ok(req.(attrs := [LinkInfo.LinkInfoAttr(info)]))
  }

  /** What `SetBitrate` sends reads back as a bit timing holding the new
      bitrate and zero everywhere else, and the current control mode;
      nothing else of the receiver's description changes. */
  lemma SetBitrateSends(index: int, bitrate: u32, replies: seq<Reply>, target: LinkInfo.Info)
    requires |replies| != 0
    requires |replies| == 1 ==> |replies[0].data| >= IfInfo.SizeOfIfInfoMsg
    requires UpdateInfo(replies).Ok?
    ensures var sent := SetBitrateRequest(index, bitrate, replies).value.attrs;
      LinkInfo.Decode(LinkInfo.TopStep, target, LinkInfo.AsReceivedAll(sent)) ==
        Ok(target.(bitTiming := LinkInfo.ZeroBitTiming.(bitrate := bitrate),
                   ctrlMode := UpdateInfo(replies).value.0.ctrlMode))
  {
    var cur := InitSetParameters(replies).value;
    var info := cur.(bitTiming := cur.bitTiming.(bitrate := bitrate));
    var sent := SetBitrateRequest(index, bitrate, replies).value.attrs;
    assert sent == [LinkInfo.LinkInfoAttr(info)];
    assert LinkInfo.AsReceivedAll(sent) == [LinkInfo.AsReceived(LinkInfo.LinkInfoAttr(info))];
    LinkInfo.LinkInfoAttrDecodes(info, target);
  }

  /** `SetListenOnlyMode`'s request: the current parameters with the
      control mode updated, sent as IFLA_LINKINFO after the link header. */
  function SetListenOnlyRequest(index: int, mode: bool, replies: seq<Reply>): (r: Result<Message>)
    requires |replies| != 0
    requires |replies| == 1 ==> |replies[0].data| >= IfInfo.SizeOfIfInfoMsg
    ensures r.Ok? <==> UpdateInfo(replies).Ok?
    ensures r.Err? ==> r.error == UpdateInfo(replies).error
    ensures r.Ok? ==> r.value.header == Header(RtmNewlink, RequestAck)
    ensures r.Ok? ==> r.value.data == IfInfo.Marshal(SetterHeader(index))
    ensures r.Ok? ==> var cur := UpdateInfo(replies).value.0;
      r.value.attrs == [LinkInfo.LinkInfoAttr(LinkInfo.ZeroInfo.(
        bitTiming := LinkInfo.ZeroBitTiming.(bitrate := cur.bitTiming.bitrate),
        ctrlMode := ListenOnlyUpdate(cur.ctrlMode, mode)))]
    ensures r.Ok? ==> SendsCanLinkInfo(r.value)
  {
    var req := NewRequest(RtmNewlink, SetterHeader(index));
    var info :- InitSetParameters(replies);
    var info := info.(ctrlMode := ListenOnlyUpdate(info.ctrlMode, mode));
    Ok(req.(attrs := [LinkInfo.LinkInfoAttr(info)]))
  }

  /** What `SetListenOnlyMode` sends reads back as the current bitrate and
      a control mode that selects the listen-only bit, and sets it exactly
      when the mode is turned on. */
  lemma SetListenOnlySends(index: int, mode: bool, replies: seq<Reply>, target: LinkInfo.Info)
    requires |replies| != 0
    requires |replies| == 1 ==> |replies[0].data| >= IfInfo.SizeOfIfInfoMsg
    requires UpdateInfo(replies).Ok?
    ensures var sent := SetListenOnlyRequest(index, mode, replies).value.attrs;
            var got := LinkInfo.Decode(LinkInfo.TopStep, target, LinkInfo.AsReceivedAll(sent));
            var cur := UpdateInfo(replies).value.0;
      && got == Ok(target.(bitTiming := LinkInfo.ZeroBitTiming.(bitrate := cur.bitTiming.bitrate),
                           ctrlMode := ListenOnlyUpdate(cur.ctrlMode, mode)))
      && ListenOnlyBit(got.value.ctrlMode.mask)
      && (ListenOnlyBit(got.value.ctrlMode.flags) <==> mode)
  {
    var now := UpdateInfo(replies).value.0;
    var cur := InitSetParameters(replies).value;
    var cm := ListenOnlyUpdate(now.ctrlMode, mode);
    var info := cur.(ctrlMode := cm);
    assert info.bitTiming == LinkInfo.ZeroBitTiming.(bitrate := now.bitTiming.bitrate);
    var sent := SetListenOnlyRequest(index, mode, replies).value.attrs;
    assert sent == [LinkInfo.LinkInfoAttr(info)];
    assert LinkInfo.AsReceivedAll(sent) == [LinkInfo.AsReceived(LinkInfo.LinkInfoAttr(info))];
    LinkInfo.LinkInfoAttrDecodes(info, target);
    assert ListenOnlyBit(cm.mask) && (ListenOnlyBit(cm.flags) <==> mode);
  }
}

=== FILE: filter.dfy ===
/** Acceptance-filter entries for a raw CAN socket: an identifier and a mask,
    with bit 29 of the identifier (CAN_INV_FILTER) inverting the match. */
module Filter {
  import opened Bytes
  import opened CanId

  datatype Filter = Filter(id: u32, mask: u32)

  /** True when the filter's identifier carries CAN_INV_FILTER, the bit
      CAN_ERR_FLAG occupies in a frame identifier. */
  predicate Inverted(f: Filter) {
    (f.id / InvFilter) % 2 == 1
  }

  /** A standard-format filter on `id`; `id` is taken as given, not masked. */
  function NewStdFilter(id: u32): (f: Filter)
    ensures f.mask == SffMask
    ensures f.id == id
  {
    Filter(id, SffMask)
  }

  /** An inverted standard-format filter: `id` with bit 29 set, every other
      bit of `id` kept. */
  function NewStdInvFilter(id: u32): (f: Filter)
    ensures f.mask == SffMask
    ensures Inverted(f)
    ensures Ident(f.id) == Ident(id) && EffBit(f.id) == EffBit(id) && RtrBit(f.id) == RtrBit(id)
  {
    Filter(SetErr(id), SffMask)
  }

  /** An extended-format filter on `id`; `id` is taken as given, not masked. */
  function NewExtFilter(id: u32): (f: Filter)
    ensures f.mask == EffMask
    ensures f.id == id
  {
    Filter(id, EffMask)
  }

  /** An inverted extended-format filter: `id` with bit 29 set, every other
      bit of `id` kept. */
  function NewExtInvFilter(id: u32): (f: Filter)
    ensures f.mask == EffMask
    ensures Inverted(f)
    ensures Ident(f.id) == Ident(id) && EffBit(f.id) == EffBit(id) && RtrBit(f.id) == RtrBit(id)
  {
    Filter(SetErr(id), EffMask)
  }

  /** An inverted filter is the plain filter with its identifier's bit 29
      set: the two coincide exactly when `id` already carries the bit. */
  lemma InvertedIsPlainWithBit29(id: u32)
    ensures NewStdInvFilter(id).mask == NewStdFilter(id).mask
    ensures NewExtInvFilter(id).mask == NewExtFilter(id).mask
    ensures NewStdInvFilter(id) == NewStdFilter(id) <==> Inverted(NewStdFilter(id))
    ensures NewExtInvFilter(id) == NewExtFilter(id) <==> Inverted(NewExtFilter(id))
  {
    if ErrBit(id) {
      FieldsDetermine(SetErr(id), id);
    }
  }

  /** Inverting an already inverted identifier changes nothing. */
  lemma InversionIdempotent(id: u32)
    ensures NewStdInvFilter(NewStdInvFilter(id).id) == NewStdInvFilter(id)
    ensures NewExtInvFilter(NewExtInvFilter(id).id) == NewExtInvFilter(id)
  {
    FieldsDetermine(SetErr(SetErr(id)), SetErr(id));
  }

  /** Identifiers are neither range-checked nor masked: an identifier wider
      than eleven bits survives in a standard filter. */
  lemma NoRangeCheck()
    ensures NewStdFilter(0x1234_5678) == Filter(0x1234_5678, 0x7FF)
    ensures NewStdInvFilter(0x20) == Filter(0x2000_0020, 0x7FF)
    ensures NewExtInvFilter(0x20) == Filter(0x2000_0020, 0x1FFF_FFFF)
  {
  }
}

=== FILE: fixed_frame.dfy ===
/** The fixed-array CAN frame of the top-level package and its encoder
    (`Frame.marshal`), which the send path of `Device` uses.  Unlike the
    slice codec in CanFrame it carries an explicit `Length` and writes it
    verbatim. */
module FixedFrame {
  import opened Bytes
  import opened CanId
  import CanFrame

  const MaxDataLen: nat := 8
  const FrameLen: nat := 16

  /** Exactly MaxDataLen payload bytes, Go's `[MAX_DATA_LEN]byte`. */
  type DataArray = s: seq<byte> | |s| == MaxDataLen witness Zeros(8)

  datatype Frame = Frame(id: u32, length: byte, data: DataArray, isExtended: bool, isRemote: bool, isError: bool)

  /** `Frame.marshal`: identifier word, `Length` as given, three bytes of the
      never-written package padding, then the whole data array. */
  function Marshal(f: Frame): (r: seq<byte>)
    ensures |r| == FrameLen
    ensures var w := GetU32(r[..4]);
      && Ident(w) == Ident(f.id)
      && (EffBit(w) <==> f.isExtended || EffBit(f.id))
      && (RtrBit(w) <==> f.isRemote || RtrBit(f.id))
      && (ErrBit(w) <==> f.isError || ErrBit(f.id))
    ensures r[4] == f.length
    ensures r[5..8] == Zeros(3)
    ensures r[8..] == f.data
  {
    var w := IdWord(f.id, f.isExtended, f.isRemote, f.isError);
    var r := PutU32(w) + [f.length] + Zeros(3) + f.data;
    assert r[..4] == PutU32(w);
    U32RoundTrip(w);
    r
  }

  /** For an identifier within the 29-bit mask, the identifier word gives the
      identifier back under EffMask and carries each flag bit exactly when
      its boolean is set. */
  lemma IdentifierRecoverable(f: Frame)
    requires f.id <= 0x1FFF_FFFF
    ensures var w := GetU32(Marshal(f)[..4]);
      && Ident(w) == f.id
      && (EffBit(w) <==> f.isExtended)
      && (RtrBit(w) <==> f.isRemote)
      && (ErrBit(w) <==> f.isError)
  {
  }

  /** The length byte is not clamped: a frame claiming nine bytes goes out
      with a length code of nine, which the slice codec never produces. */
  lemma LengthNotClamped(f: Frame)
    requires f.length == 9
    ensures Marshal(f)[4] == 9
    ensures forall g: CanFrame.Frame :: CanFrame.Marshal(g)[4] != Marshal(f)[4]
  {
  }

  /** When `length` agrees with the data and the bytes past it are zero, both
      encoders produce the same image. */
  lemma AgreesWithSliceCodec(f: Frame, g: CanFrame.Frame)
    requires f.length as int <= MaxDataLen
    requires g.data == f.data[..f.length]
    requires forall i :: f.length as int <= i < MaxDataLen ==> f.data[i] == 0
    requires g.id == f.id && g.isExtended == f.isExtended && g.isRemote == f.isRemote && g.isError == f.isError
    ensures Marshal(f) == CanFrame.Marshal(g)
  {
    var a := Marshal(f);
    var b := CanFrame.Marshal(g);
    assert a[..4] == b[..4];
    assert forall i :: 4 <= i < FrameLen ==> a[i] == b[i];
  }

  /** The frame the demo program sends: extended, identifier 0x20, four bytes. */
  lemma DemoVector()
    ensures Marshal(Frame(0x20, 4, [0x01, 0x02, 0x03, 0x55, 0, 0, 0, 0], true, false, false))
         == [0x20, 0x00, 0x00, 0x80, 0x04, 0x00, 0x00, 0x00,
             0x01, 0x02, 0x03, 0x55, 0x00, 0x00, 0x00, 0x00]
  {
  }
}

=== FILE: if_info.dfy ===
/** The rtnetlink link header `struct ifinfomsg` (section 3.1.1 of RFC 3549),
    Go's `unix.IfInfomsg`, and its 16-byte little-endian codec.

    Layout: 0 family, 1 reserved (written 0), 2..4 device type, 4..8
    interface index (signed), 8..12 device flags, 12..16 change mask. */
module IfInfo {
  import opened Bytes
  import opened Results

  const SizeOfIfInfoMsg: nat := 16

  datatype IfInfoMsg = IfInfoMsg(family: byte, typ: u16, index: i32, flags: u32, change: u32)

  /** `ifInfoMsg.marshalBinary`: the family, a zero byte, then the device
      type, the index as its two's-complement bits, the flags and the
      change mask. */
  function Marshal(m: IfInfoMsg): (r: seq<byte>)
    ensures |r| == SizeOfIfInfoMsg
    ensures r[0] == m.family && r[1] == 0
    ensures GetU16(r[2..4]) == m.typ
    ensures I32Of(GetU32(r[4..8])) == m.index
    ensures GetU32(r[8..12]) == m.flags
    ensures GetU32(r[12..16]) == m.change
  {
    var r := [m.family, 0] + PutU16(m.typ) + PutU32(U32Of(m.index)) + PutU32(m.flags) + PutU32(m.change);
    assert r[2..4] == PutU16(m.typ);
    assert r[4..8] == PutU32(U32Of(m.index));
    assert r[8..12] == PutU32(m.flags);
    assert r[12..16] == PutU32(m.change);
    U16RoundTrip(m.typ);
    U32RoundTrip(U32Of(m.index));
    U32RoundTrip(m.flags);
    U32RoundTrip(m.change);
    SignedViewsInverse(m.index, 0);
    r
  }

  /** `ifInfoMsg.unmarshalBinary`: exactly 16 bytes, else a size error.
      Byte 1 is not read. */
  function Unmarshal(data: seq<byte>): (r: Result<IfInfoMsg>)
    ensures r.Err? <==> |data| != SizeOfIfInfoMsg
    ensures r.Err? ==> r.error == SizeMismatch("ifInfoMsg", SizeOfIfInfoMsg, |data|)
    ensures r.Ok? ==> && r.value.family == data[0]
                      && r.value.typ == GetU16(data[2..4])
                      && U32Of(r.value.index) == GetU32(data[4..8])
                      && r.value.flags == GetU32(data[8..12])
                      && r.value.change == GetU32(data[12..16])
  {
    if |data| != SizeOfIfInfoMsg then Err(SizeMismatch("ifInfoMsg", SizeOfIfInfoMsg, |data|))
    else
      var index := I32Of(GetU32(data[4..8]));
      SignedViewsInverse(0, GetU32(data[4..8]));
      Ok(IfInfoMsg(data[0], GetU16(data[2..4]), index, GetU32(data[8..12]), GetU32(data[12..16])))
  }

  /** Decoding an encoded header restores every field. */
  lemma RoundTrip(m: IfInfoMsg)
    ensures Unmarshal(Marshal(m)) == Ok(m)
  {
    var d := Marshal(m);
    var n := Unmarshal(d).value;
    SignedViewsInverse(n.index, GetU32(d[4..8]));
  }

  /** Re-encoding a decoded header reproduces the input except the reserved
      byte, which comes out zero whatever it was. */
  lemma ReservedByteCleared(data: seq<byte>)
    requires |data| == SizeOfIfInfoMsg
    ensures Unmarshal(data).Ok?
    ensures Marshal(Unmarshal(data).value) == data[1 := 0]
  {
    var m := Unmarshal(data).value;
    var r := Marshal(m);
    U16Canonical(data[2..4]);
    U32Canonical(data[4..8]);
    U32Canonical(data[8..12]);
    U32Canonical(data[12..16]);
    assert r[2..4] == data[2..4];
    assert r[4..8] == data[4..8];
    assert r[8..12] == data[8..12];
    assert r[12..16] == data[12..16];
    assert forall i :: 2 <= i < SizeOfIfInfoMsg ==> r[i] == data[i];
  }
}

=== FILE: link_info.dfy ===
/** The link description of an RTM_GETLINK reply and the IFLA_LINKINFO
    attribute the setters send, over an abstract attribute list.

    The netlink attribute format (type-length-value records, 4-byte
    alignment) belongs to the netlink library and is not modelled: an
    attribute is its type, with the nested and byte-order flag bits already
    removed, its payload, and the attribute list its payload parses into
    when it is read as nested attributes (None when it does not parse). */
module LinkInfo {
  import opened Bytes
  import opened Results
  import opened LinkStructs
  import IfInfo

  // Top-level link attributes (linux/if_link.h).
  const IflaIfname: u16 := 3
  const IflaLinkinfo: u16 := 18

  // Attributes nested in IFLA_LINKINFO.
  const IflaInfoKind: u16 := 1
  const IflaInfoData: u16 := 2
  const IflaInfoXstats: u16 := 3

  // CAN attributes nested in IFLA_INFO_DATA (linux/can/netlink.h).
  const IflaCanBittiming: u16 := 1
  const IflaCanBittimingConst: u16 := 2
  const IflaCanClock: u16 := 3
  const IflaCanCtrlmode: u16 := 5
  const IflaCanBerrCounter: u16 := 8

  /** ARPHRD_CAN: the device type of a CAN interface (linux/if_arp.h). */
  const ArphrdCan: u16 := 280

  /** The link kinds accepted as CAN: "can" and "vcan", as bytes. */
  const CanLinkType: seq<byte> := [0x63, 0x61, 0x6E]
  const VcanLinkType: seq<byte> := [0x76, 0x63, 0x61, 0x6E]

  /** A received attribute, as the attribute decoder presents it. */
  datatype Attr = Attr(tag: u16, data: seq<byte>, nested: Option<seq<Attr>>)

  /** Go's `Info`: everything the package reads about a CAN link. */
  datatype Info = Info(
    devName: seq<byte>,
    bitTiming: BitTiming,
    bitTimingConst: BitTimingConst,
    clock: Clock,
    ctrlMode: CtrlMode,
    errCounters: BusErrCounters,
    devStats: DevStats)

  const ZeroBitTiming: BitTiming := BitTiming(0, 0, 0, 0, 0, 0, 0, 0)

  /** The zero `Info` the decoder starts from. */
  const ZeroInfo: Info := Info(
    [], ZeroBitTiming, BitTimingConst(Zeros(16), 0, 0, 0, 0, 0, 0, 0, 0),
    Clock(0), CtrlMode(0, 0), BusErrCounters(0, 0), DevStats(0, 0, 0, 0, 0, 0))

  /** `AttributeDecoder.String`: the payload without its trailing NUL bytes. */
  function TrimNul(b: seq<byte>): (s: seq<byte>)
    ensures |s| <= |b| && s == b[..|s|]
    ensures forall i :: |s| <= i < |b| ==> b[i] == 0
    ensures |s| == 0 || s[|s| - 1] != 0
    decreases |b|
  {
    if |b| > 0 && b[|b| - 1] == 0 then TrimNul(b[..|b| - 1]) else b
  }

  // ---------------------------------------------------------------------
  // The decoder loop

  /** One pass of an attribute decoder over `attrs`, with `step` the body of
      its `switch`: the attributes are taken in order and the first error
      ends the pass and is its result. */
  function Decode(step: (Info, Attr) -> Result<Info>, info: Info, attrs: seq<Attr>): Result<Info>
    decreases |attrs|
  {
    if attrs == [] then Ok(info)
    else
      var next :- step(info, attrs[0]);
      Decode(step, next, attrs[1..])
  }

  /** Decoding a concatenation decodes the second part from where the first
      left off; an error in the first part is the result and the second
      part is never looked at. */
  lemma {:induction false} DecodeAppend(step: (Info, Attr) -> Result<Info>, info: Info, xs: seq<Attr>, ys: seq<Attr>)
    ensures Decode(step, info, xs + ys) ==
      match Decode(step, info, xs)
      case Ok(mid) => Decode(step, mid, ys)
      case Err(e) => Err(e)
    decreases |xs|
  {
    if xs == [] {
      assert xs + ys == ys;
    } else {
      assert (xs + ys)[0] == xs[0];
      assert (xs + ys)[1..] == xs[1..] + ys;
      var first := step(info, xs[0]);
      if first.Ok? {
        DecodeAppend(step, first.value, xs[1..], ys);
      }
    }
  }

  /** A two-attribute pass is two steps. */
  lemma DecodeTwo(step: (Info, Attr) -> Result<Info>, info: Info, attrs: seq<Attr>)
    requires |attrs| == 2
    ensures Decode(step, info, attrs) ==
      match step(info, attrs[0])
      case Ok(mid) => step(mid, attrs[1])
      case Err(e) => Err(e)
  {
    var tail := attrs[1..];
    assert tail[0] == attrs[1] && tail[1..] == [];
    match step(info, attrs[0])
    case Ok(mid) =>
      assert Decode(step, info, attrs) == Decode(step, mid, tail);
      if step(mid, attrs[1]).Ok? {
        assert Decode(step, mid, tail) == Decode(step, step(mid, attrs[1]).value, []);
      }
    case Err(_) =>
  }

  // ---------------------------------------------------------------------
  // IFLA_INFO_DATA: Info.decodeData

  /** The CAN attribute types `decodeData` reads; every other type is skipped. */
  predicate KnownDataTag(tag: u16) {
    tag in {IflaCanBittiming, IflaCanBittimingConst, IflaCanClock, IflaCanCtrlmode, IflaCanBerrCounter}
  }

  /** The payload size each known CAN attribute must have. */
  function DataSize(tag: u16): nat
    requires KnownDataTag(tag)
  {
    if tag == IflaCanBittiming then SizeOfBitTiming
    else if tag == IflaCanBittimingConst then SizeOfBitTimingConst
    else if tag == IflaCanClock then SizeOfClock
    else if tag == IflaCanCtrlmode then SizeOfCtrlMode
    else SizeOfBusErrCounters
  }

  /** An attribute `decodeData` accepts: unknown, or known with the exact size. */
  predicate WellSized(a: Attr) {
    KnownDataTag(a.tag) ==> |a.data| == DataSize(a.tag)
  }

  /** The loop body of `decodeData`: a known attribute replaces its
      structure, an unknown one is skipped. */
  function DataStep(info: Info, a: Attr): (r: Result<Info>)
    ensures r.Ok? <==> WellSized(a)
    ensures r.Ok? ==> r.value.devName == info.devName && r.value.devStats == info.devStats
    ensures !KnownDataTag(a.tag) ==> r == Ok(info)
  {
    if a.tag == IflaCanBittiming then
      var bt :- UnmarshalBitTiming(a.data);
      Ok(info.(bitTiming := bt))
    else if a.tag == IflaCanBittimingConst then
      var c :- UnmarshalBitTimingConst(a.data);
      Ok(info.(bitTimingConst := c))
    else if a.tag == IflaCanClock then
      var c :- UnmarshalClock(a.data);
      Ok(info.(clock := c))
    else if a.tag == IflaCanCtrlmode then
      var cm :- UnmarshalCtrlMode(a.data);
      Ok(info.(ctrlMode := cm))
    else if a.tag == IflaCanBerrCounter then
      var c :- UnmarshalBusErrCounters(a.data);
      Ok(info.(errCounters := c))
    else Ok(info)
  }

  /** A well-sized CAN attribute replaces exactly its own structure, with
      the value whose kernel layout is the attribute's payload. */
  lemma DataStepStoresPayload(info: Info, a: Attr)
    requires KnownDataTag(a.tag) && WellSized(a)
    ensures DataStep(info, a).Ok?
    ensures var v := DataStep(info, a).value;
      && (a.tag == IflaCanBittiming ==>
            v == info.(bitTiming := v.bitTiming) && MarshalBitTiming(v.bitTiming) == a.data)
      && (a.tag == IflaCanBittimingConst ==>
            v == info.(bitTimingConst := v.bitTimingConst) && BitTimingConstLayout(v.bitTimingConst) == a.data)
      && (a.tag == IflaCanClock ==>
            v == info.(clock := v.clock) && ClockLayout(v.clock) == a.data)
      && (a.tag == IflaCanCtrlmode ==>
            v == info.(ctrlMode := v.ctrlMode) && MarshalCtrlMode(v.ctrlMode) == a.data)
      && (a.tag == IflaCanBerrCounter ==>
            v == info.(errCounters := v.errCounters) && BusErrCountersLayout(v.errCounters) == a.data)
  {
    if a.tag == IflaCanBittiming {
      BitTimingCanonical(a.data);
    } else if a.tag == IflaCanBittimingConst {
      BitTimingConstCanonical(a.data);
    } else if a.tag == IflaCanClock {
      ClockCanonical(a.data);
    } else if a.tag == IflaCanCtrlmode {
      CtrlModeCanonical(a.data);
    } else {
      BusErrCountersCanonical(a.data);
    }
  }

  /** Every attribute of `attrs` is well sized. */
  predicate AllWellSized(attrs: seq<Attr>) {
    forall i :: 0 <= i < |attrs| ==> WellSized(attrs[i])
  }

  /** `Info.decodeData` over the attributes nested in IFLA_INFO_DATA: it
      succeeds exactly when every CAN attribute has its structure's size. */
  function DecodeData(info: Info, attrs: seq<Attr>): (r: Result<Info>)
    ensures r.Ok? <==> AllWellSized(attrs)
  {
    DecodeDataOk(info, attrs);
    Decode(DataStep, info, attrs)
  }

  /** The CAN attributes decode exactly when every one of them is well sized. */
  lemma {:induction false} DecodeDataOk(info: Info, attrs: seq<Attr>)
    ensures Decode(DataStep, info, attrs).Ok? <==> AllWellSized(attrs)
    decreases |attrs|
  {
    if attrs != [] {
      if WellSized(attrs[0]) {
        DecodeDataOk(DataStep(info, attrs[0]).value, attrs[1..]);
        assert forall i :: 1 <= i < |attrs| ==> attrs[i] == attrs[1..][i - 1];
      }
    }
  }

  /** The error, when there is one, is the size error of the first attribute
      that is not well sized. */
  lemma {:induction false} DecodeDataFirstError(info: Info, attrs: seq<Attr>, k: nat)
    requires k < |attrs|
    requires forall i :: 0 <= i < k ==> WellSized(attrs[i])
    requires !WellSized(attrs[k])
    ensures DecodeData(info, attrs) == Err(SizeMismatchOf(attrs[k]))
    decreases k
  {
    if k == 0 {
      SizeErrorIsFixed(info, attrs[0]);
    } else {
      DecodeDataFirstError(DataStep(info, attrs[0]).value, attrs[1..], k - 1);
    }
  }

  /** The size error `decodeData` reports for an attribute that is not well sized. */
  function SizeMismatchOf(a: Attr): Error
    requires !WellSized(a)
  {
    SizeMismatch(StructureName(a.tag), DataSize(a.tag), |a.data|)
  }

  /** The Go type named in the size error of each known attribute. */
  function StructureName(tag: u16): string
    requires KnownDataTag(tag)
  {
    if tag == IflaCanBittiming then "CanBitTiming"
    else if tag == IflaCanBittimingConst then "CanBitTimingConst"
    else if tag == IflaCanClock then "CanClock"
    else if tag == IflaCanCtrlmode then "CanCtrlMode"
    else "CanBusErrCounters"
  }

  /** A step over an ill-sized attribute fails with that attribute's size
      error, whatever the decoded state so far. */
  lemma SizeErrorIsFixed(info: Info, a: Attr)
    requires !WellSized(a)
    ensures DataStep(info, a) == Err(SizeMismatchOf(a))
  {
  }

  // ---------------------------------------------------------------------
  // IFLA_LINKINFO: Info.decode

  /** A link kind the package accepts. */
  predicate IsCanKind(kind: seq<byte>) {
    kind == CanLinkType || kind == VcanLinkType
  }

  /** The loop body of `Info.decode`: check the link kind, descend into the
      CAN attributes, read the device statistics; skip anything else. */
  function LinkInfoStep(info: Info, a: Attr): (r: Result<Info>)
    ensures a.tag == IflaInfoKind ==> (r.Ok? <==> IsCanKind(TrimNul(a.data)))
    ensures a.tag == IflaInfoKind && r.Err? ==> r.error == NotACanInterface
    ensures a.tag == IflaInfoKind && r.Ok? ==> r.value == info
    ensures a.tag == IflaInfoData && a.nested.None? ==> r == Err(MalformedAttributes)
    ensures a.tag == IflaInfoData && a.nested.Some? ==> r == DecodeData(info, a.nested.value)
    ensures a.tag == IflaInfoXstats ==> (r.Ok? <==> |a.data| == SizeOfDevStats)
    ensures a.tag == IflaInfoXstats && r.Ok? ==> r.value == info.(devStats := r.value.devStats)
    ensures a.tag !in {IflaInfoKind, IflaInfoData, IflaInfoXstats} ==> r == Ok(info)
  {
    if a.tag == IflaInfoKind then
      if IsCanKind(TrimNul(a.data)) then Ok(info) else Err(NotACanInterface)
    else if a.tag == IflaInfoData then
      if a.nested.None? then Err(MalformedAttributes) else DecodeData(info, a.nested.value)
    else if a.tag == IflaInfoXstats then
      var s :- UnmarshalDevStats(a.data);
      Ok(info.(devStats := s))
    else Ok(info)
  }

  /** The statistics attribute is accepted iff it has the structure's exact
      size; it then replaces the statistics, with the value whose kernel
      layout is its payload, and nothing else. */
  lemma XstatsStoresPayload(info: Info, a: Attr)
    requires a.tag == IflaInfoXstats
    ensures LinkInfoStep(info, a).Ok? <==> |a.data| == SizeOfDevStats
    ensures LinkInfoStep(info, a).Err? ==>
      LinkInfoStep(info, a).error == SizeMismatch("CanDevStats", SizeOfDevStats, |a.data|)
    ensures LinkInfoStep(info, a).Ok? ==> var v := LinkInfoStep(info, a).value;
      v == info.(devStats := v.devStats) && DevStatsLayout(v.devStats) == a.data
  {
    if |a.data| == SizeOfDevStats {
      DevStatsCanonical(a.data);
    }
  }

  /** An attribute `Info.decode` accepts: a CAN kind, CAN data that parses
      and whose attributes are all well sized, statistics of the exact
      size, or anything else. */
  predicate LinkInfoAccepted(a: Attr) {
    && (a.tag == IflaInfoKind ==> IsCanKind(TrimNul(a.data)))
    && (a.tag == IflaInfoData ==> a.nested.Some? && AllWellSized(a.nested.value))
    && (a.tag == IflaInfoXstats ==> |a.data| == SizeOfDevStats)
  }

  /** One step of `Info.decode` succeeds exactly on an accepted attribute. */
  lemma LinkInfoStepOk(info: Info, a: Attr)
    ensures LinkInfoStep(info, a).Ok? <==> LinkInfoAccepted(a)
  {
  }

  /** `Info.decode` over the attributes nested in IFLA_LINKINFO: it
      succeeds exactly when every attribute is accepted. */
  function DecodeLinkInfo(info: Info, attrs: seq<Attr>): (r: Result<Info>)
    ensures r.Ok? <==> forall i :: 0 <= i < |attrs| ==> LinkInfoAccepted(attrs[i])
  {
    DecodeLinkInfoOk(info, attrs);
    Decode(LinkInfoStep, info, attrs)
  }

  lemma {:induction false} DecodeLinkInfoOk(info: Info, attrs: seq<Attr>)
    ensures Decode(LinkInfoStep, info, attrs).Ok? <==> forall i :: 0 <= i < |attrs| ==> LinkInfoAccepted(attrs[i])
    decreases |attrs|
  {
    if attrs != [] {
      LinkInfoStepOk(info, attrs[0]);
      if LinkInfoAccepted(attrs[0]) {
        DecodeLinkInfoOk(LinkInfoStep(info, attrs[0]).value, attrs[1..]);
        assert forall i :: 1 <= i < |attrs| ==> attrs[i] == attrs[1..][i - 1];
      }
    }
  }

  // ---------------------------------------------------------------------
  // The whole reply: respondData.unmarshalBinary

  /** The body of the top-level loop: the interface name, or the link
      information; anything else is skipped. */
  function TopStep(info: Info, a: Attr): (r: Result<Info>)
    ensures a.tag == IflaIfname ==> r == Ok(info.(devName := TrimNul(a.data)))
    ensures a.tag == IflaLinkinfo && a.nested.None? ==> r == Err(MalformedAttributes)
    ensures a.tag == IflaLinkinfo && a.nested.Some? ==> r == DecodeLinkInfo(info, a.nested.value)
    ensures a.tag != IflaIfname && a.tag != IflaLinkinfo ==> r == Ok(info)
  {
    if a.tag == IflaIfname then Ok(info.(devName := TrimNul(a.data)))
    else if a.tag == IflaLinkinfo then
      if a.nested.None? then Err(MalformedAttributes) else DecodeLinkInfo(info, a.nested.value)
    else Ok(info)
  }

  /** `respondData.unmarshalBinary`: the 16-byte link header, then the
      attributes after it (`attrs`, the parse of `rd[16..]`).  A reply
      whose attributes do not parse fails first; then a device type other
      than ARPHRD_CAN is rejected; then the attributes are decoded into a
      zero `Info`.  Bytes 0 to 16 must exist: Go slices them unchecked. */
  function DecodeReply(rd: seq<byte>, attrs: Option<seq<Attr>>): (r: Result<(Info, IfInfo.IfInfoMsg)>)
    requires |rd| >= IfInfo.SizeOfIfInfoMsg
    ensures attrs.None? ==> r == Err(MalformedAttributes)
    ensures attrs.Some? && GetU16(rd[2..4]) != ArphrdCan ==> r == Err(NotACanInterface)
    ensures r.Ok? ==> Ok(r.value.1) == IfInfo.Unmarshal(rd[..IfInfo.SizeOfIfInfoMsg])
    ensures r.Ok? ==> r.value.1.typ == ArphrdCan
    ensures attrs.Some? && GetU16(rd[2..4]) == ArphrdCan ==>
      (r.Ok? <==> Decode(TopStep, ZeroInfo, attrs.value).Ok?)
    ensures attrs.Some? && GetU16(rd[2..4]) == ArphrdCan ==>
      var d := Decode(TopStep, ZeroInfo, attrs.value);
      && (d.Ok? ==> r.value.0 == d.value)
      && (d.Err? ==> r == Err(d.error))
  {
    var header := rd[..IfInfo.SizeOfIfInfoMsg];
    assert header[2..4] == rd[2..4];
    var ifInfo := IfInfo.Unmarshal(header).value;
    if attrs.None? then Err(MalformedAttributes)
    else if ifInfo.typ != ArphrdCan then Err(NotACanInterface)
    else
      var info :- Decode(TopStep, ZeroInfo, attrs.value);
      Ok((info, ifInfo))
  }

  /** A link whose kind is neither "can" nor "vcan" is rejected, whatever
      follows, once its kind attribute is reached. */
  lemma ForeignKindRejected(info: Info, kind: seq<byte>, rest: seq<Attr>)
    requires !IsCanKind(TrimNul(kind))
    ensures DecodeLinkInfo(info, [Attr(IflaInfoKind, kind, None)] + rest) == Err(NotACanInterface)
  {
  }

  /** An Ethernet link ("eth") is not a CAN interface. */
  lemma EthernetRejected(info: Info)
    ensures DecodeLinkInfo(info, [Attr(IflaInfoKind, [0x65, 0x74, 0x68, 0], None)]) == Err(NotACanInterface)
  {
    var k: seq<byte> := [0x65, 0x74, 0x68, 0];
    assert TrimNul(k) == [0x65, 0x74, 0x68] by {
      assert k[..3] == [0x65, 0x74, 0x68];
    }
  }

  /** Attributes of unknown type are skipped at every level. */
  lemma UnknownSkipped(info: Info, a: Attr, rest: seq<Attr>)
    ensures !KnownDataTag(a.tag) ==> DecodeData(info, [a] + rest) == DecodeData(info, rest)
    ensures a.tag !in {IflaInfoKind, IflaInfoData, IflaInfoXstats} ==>
      DecodeLinkInfo(info, [a] + rest) == DecodeLinkInfo(info, rest)
    ensures a.tag != IflaIfname && a.tag != IflaLinkinfo ==>
      Decode(TopStep, info, [a] + rest) == Decode(TopStep, info, rest)
  {
    assert ([a] + rest)[1..] == rest;
  }

  /** The first ill-sized CAN attribute under IFLA_INFO_DATA ends the
      link-info decode with its size error, once a CAN kind has passed. */
  lemma LinkInfoFirstSizeError(info: Info, kind: seq<byte>, db: seq<byte>, data: seq<Attr>, k: nat, rest: seq<Attr>)
    requires IsCanKind(TrimNul(kind))
    requires k < |data| && !WellSized(data[k])
    requires forall i :: 0 <= i < k ==> WellSized(data[i])
    ensures DecodeLinkInfo(info, [Attr(IflaInfoKind, kind, None), Attr(IflaInfoData, db, Some(data))] + rest)
      == Err(SizeMismatchOf(data[k]))
  {
    var two := [Attr(IflaInfoKind, kind, None), Attr(IflaInfoData, db, Some(data))];
    DecodeDataFirstError(info, data, k);
    DecodeTwo(LinkInfoStep, info, two);
    DecodeAppend(LinkInfoStep, info, two, rest);
  }

  /** A CAN reply whose IFLA_INFO_DATA holds an ill-sized CAN attribute
      fails with the size error of the first such attribute. */
  lemma ReplyReportsFirstSizeError(m: IfInfo.IfInfoMsg, lb: seq<byte>, kind: seq<byte>, db: seq<byte>,
                                   data: seq<Attr>, k: nat, rest: seq<Attr>)
    requires m.typ == ArphrdCan && IsCanKind(TrimNul(kind))
    requires k < |data| && !WellSized(data[k])
    requires forall i :: 0 <= i < k ==> WellSized(data[i])
    ensures var li := [Attr(IflaInfoKind, kind, None), Attr(IflaInfoData, db, Some(data))] + rest;
      DecodeReply(IfInfo.Marshal(m), Some([Attr(IflaLinkinfo, lb, Some(li))])) == Err(SizeMismatchOf(data[k]))
  {
    var li := [Attr(IflaInfoKind, kind, None), Attr(IflaInfoData, db, Some(data))] + rest;
    LinkInfoFirstSizeError(ZeroInfo, kind, db, data, k, rest);
    var rd := IfInfo.Marshal(m);
    IfInfo.RoundTrip(m);
    assert rd[..IfInfo.SizeOfIfInfoMsg] == rd;
    assert GetU16(rd[2..4]) == m.typ;
  }

  // ---------------------------------------------------------------------
  // Encoding: Info.encode and Info.encodeData

  /** An attribute to be sent: a payload, or a list of nested attributes. */
  datatype Node = Leaf(tag: u16, data: seq<byte>) | Nest(tag: u16, kids: seq<Node>)

  /** `Info.encodeData`: the bit timing and the control mode, nothing else. */
  function EncodeData(info: Info): (r: seq<Node>)
    ensures |r| == 2 && r[0].Leaf? && r[1].Leaf?
    ensures r[0].tag == IflaCanBittiming && UnmarshalBitTiming(r[0].data) == Ok(info.bitTiming)
    ensures r[1].tag == IflaCanCtrlmode && UnmarshalCtrlMode(r[1].data) == Ok(info.ctrlMode)
  {
    BitTimingRoundTrip(info.bitTiming);
    CtrlModeRoundTrip(info.ctrlMode);
    [Leaf(IflaCanBittiming, MarshalBitTiming(info.bitTiming)),
     Leaf(IflaCanCtrlmode, MarshalCtrlMode(info.ctrlMode))]
  }

  /** `Info.encode`: the kind "can" as a NUL-terminated string, then the CAN
      attributes nested in IFLA_INFO_DATA. */
  function Encode(info: Info): (r: seq<Node>)
    ensures |r| == 2
    ensures r[0] == Leaf(IflaInfoKind, CanLinkType + [0]) && TrimNul(r[0].data) == CanLinkType
    ensures r[1].Nest? && r[1].tag == IflaInfoData && r[1].kids == EncodeData(info)
  {
    var k := CanLinkType + [0];
    assert k[..3] == CanLinkType;
    assert TrimNul(k) == CanLinkType;
    [Leaf(IflaInfoKind, CanLinkType + [0]), Nest(IflaInfoData, EncodeData(info))]
  }

  /** The IFLA_LINKINFO attribute a setter appends to its request. */
  function LinkInfoAttr(info: Info): Node {
    Nest(IflaLinkinfo, Encode(info))
  }

  /** An attribute as the receiving decoder sees it.  A nested attribute's
      payload bytes are its children's encoding, which is not modelled; the
      decoder only reads such an attribute through its children. */
  function AsReceived(n: Node): (a: Attr)
    ensures a.tag == n.tag
    ensures n.Leaf? ==> a.data == n.data && a.nested.None?
    ensures n.Nest? ==> a.nested == Some(AsReceivedAll(n.kids))
    decreases n, 0
  {
    match n
    case Leaf(tag, data) => Attr(tag, data, None)
    case Nest(tag, kids) => Attr(tag, [], Some(AsReceivedAll(kids)))
  }

  function AsReceivedAll(ns: seq<Node>): (r: seq<Attr>)
    ensures |r| == |ns|
    decreases ns, 1
  {
    if ns == [] then [] else [AsReceived(ns[0])] + AsReceivedAll(ns[1..])
  }

  /** Two nodes are received as two attributes, in order. */
  lemma AsReceivedPair(ns: seq<Node>)
    requires |ns| == 2
    ensures AsReceivedAll(ns) == [AsReceived(ns[0]), AsReceived(ns[1])]
  {
    assert ns[1..][1..] == [];
  }

  /** What a setter sends reads back as the bit timing and control mode it
      carries, laid over whatever the decoder started from: the kind passes
      the CAN check and nothing else is touched. */
  lemma EncodeDecode(info: Info, target: Info)
    ensures DecodeLinkInfo(target, AsReceivedAll(Encode(info))) ==
      Ok(target.(bitTiming := info.bitTiming, ctrlMode := info.ctrlMode))
  {
    var data := AsReceivedAll(EncodeData(info));
    EncodeDataDecodes(info, target);
    SentKindPasses(target);
    var attrs := AsReceivedAll(Encode(info));
    AsReceivedPair(Encode(info));
    assert attrs == [Attr(IflaInfoKind, CanLinkType + [0], None), Attr(IflaInfoData, [], Some(data))];
    assert LinkInfoStep(target, attrs[1]) == DecodeData(target, data);
    DecodeTwo(LinkInfoStep, target, attrs);
  }

  /** The NUL-terminated kind "can" that a setter sends passes the CAN check. */
  lemma SentKindPasses(target: Info)
    ensures LinkInfoStep(target, Attr(IflaInfoKind, CanLinkType + [0], None)) == Ok(target)
  {
    var k := CanLinkType + [0];
    assert k[..3] == CanLinkType;
    assert TrimNul(k) == CanLinkType;
  }

  /** The CAN attributes a setter sends read back as its bit timing and
      control mode. */
  lemma EncodeDataDecodes(info: Info, target: Info)
    ensures DecodeData(target, AsReceivedAll(EncodeData(info))) ==
      Ok(target.(bitTiming := info.bitTiming, ctrlMode := info.ctrlMode))
  {
    var data := AsReceivedAll(EncodeData(info));
    BitTimingRoundTrip(info.bitTiming);
    CtrlModeRoundTrip(info.ctrlMode);
    AsReceivedPair(EncodeData(info));
    var mid := target.(bitTiming := info.bitTiming);
    assert DataStep(target, data[0]) == Ok(mid);
    assert DataStep(mid, data[1]) == Ok(mid.(ctrlMode := info.ctrlMode));
    DecodeTwo(DataStep, target, data);
  }

  /** The whole IFLA_LINKINFO attribute, decoded by the top-level loop. */
  lemma LinkInfoAttrDecodes(info: Info, target: Info)
    ensures Decode(TopStep, target, [AsReceived(LinkInfoAttr(info))]) ==
      Ok(target.(bitTiming := info.bitTiming, ctrlMode := info.ctrlMode))
  {
    EncodeDecode(info, target);
  }
}

=== FILE: link_structs.dfy ===
/** The fixed-layout CAN payloads of the rtnetlink link attributes (Linux
    `linux/can/netlink.h`): each is a run of u32 (or u16) fields at
    consecutive offsets, and each decoder insists on the exact size. */
module LinkStructs {
  import opened Bytes
  import opened Results

  const SizeOfBitTiming: nat := 32
  const SizeOfBitTimingConst: nat := 48
  const SizeOfClock: nat := 4
  const SizeOfBusErrCounters: nat := 4
  const SizeOfCtrlMode: nat := 8
  const SizeOfDevStats: nat := 24

  // ---------------------------------------------------------------------
  // struct can_bittiming: marshalled and unmarshalled

  datatype BitTiming = BitTiming(
    bitrate: u32, samplePoint: u32, tq: u32, propSeg: u32,
    phaseSeg1: u32, phaseSeg2: u32, sjw: u32, brp: u32)

  /** The fields in declaration order, which is their wire order. */
  function BitTimingFields(bt: BitTiming): (ws: seq<u32>)
    ensures |ws| == 8
  {
    [bt.bitrate, bt.samplePoint, bt.tq, bt.propSeg, bt.phaseSeg1, bt.phaseSeg2, bt.sjw, bt.brp]
  }

  /** `CanBitTiming.marshalBinary`: field i at byte offset 4 * i. */
  function MarshalBitTiming(bt: BitTiming): (r: seq<byte>)
    ensures |r| == SizeOfBitTiming
    ensures forall i :: 0 <= i < 8 ==> U32At(r, i) == BitTimingFields(bt)[i]
  {
    var r := PackU32s(BitTimingFields(bt));
    forall i | 0 <= i < 8
      ensures U32At(r, i) == BitTimingFields(bt)[i]
    {
      PackU32sAt(BitTimingFields(bt), i);
    }
    r
  }

  /** `CanBitTiming.unmarshalBinary`: exactly 32 bytes, else a size error. */
  function UnmarshalBitTiming(data: seq<byte>): (r: Result<BitTiming>)
    ensures r.Err? <==> |data| != SizeOfBitTiming
    ensures r.Err? ==> r.error == SizeMismatch("CanBitTiming", SizeOfBitTiming, |data|)
    ensures r.Ok? ==> forall i :: 0 <= i < 8 ==> BitTimingFields(r.value)[i] == U32At(data, i)
  {
    if |data| != SizeOfBitTiming then Err(SizeMismatch("CanBitTiming", SizeOfBitTiming, |data|))
    else
      var ws := UnpackU32s(data);
      Ok(BitTiming(ws[0], ws[1], ws[2], ws[3], ws[4], ws[5], ws[6], ws[7]))
  }

  /** Decoding an encoded bit timing gives it back. */
  lemma BitTimingRoundTrip(bt: BitTiming)
    ensures UnmarshalBitTiming(MarshalBitTiming(bt)) == Ok(bt)
  {
    UnpackPack(BitTimingFields(bt));
  }

  /** Every 32-byte payload is the encoding of what it decodes to. */
  lemma BitTimingCanonical(data: seq<byte>)
    requires |data| == SizeOfBitTiming
    ensures UnmarshalBitTiming(data).Ok?
    ensures MarshalBitTiming(UnmarshalBitTiming(data).value) == data
  {
    var bt := UnmarshalBitTiming(data).value;
    assert BitTimingFields(bt) == UnpackU32s(data);
    PackUnpack(data);
  }

  // ---------------------------------------------------------------------
  // struct can_ctrlmode: marshalled and unmarshalled

  datatype CtrlMode = CtrlMode(mask: u32, flags: u32)

  /** `CanCtrlMode.marshalBinary`: the mask, then the flags. */
  function MarshalCtrlMode(cm: CtrlMode): (r: seq<byte>)
    ensures |r| == SizeOfCtrlMode
    ensures GetU32(r[0..4]) == cm.mask && GetU32(r[4..8]) == cm.flags
  {
    var r := PutU32(cm.mask) + PutU32(cm.flags);
    assert r[0..4] == PutU32(cm.mask) && r[4..8] == PutU32(cm.flags);
    U32RoundTrip(cm.mask);
    U32RoundTrip(cm.flags);
    r
  }

  /** `CanCtrlMode.unmarshalBinary`: exactly 8 bytes, else a size error. */
  function UnmarshalCtrlMode(data: seq<byte>): (r: Result<CtrlMode>)
    ensures r.Err? <==> |data| != SizeOfCtrlMode
    ensures r.Err? ==> r.error == SizeMismatch("CanCtrlMode", SizeOfCtrlMode, |data|)
    ensures r.Ok? ==> r.value.mask == GetU32(data[0..4]) && r.value.flags == GetU32(data[4..8])
  {
    if |data| != SizeOfCtrlMode then Err(SizeMismatch("CanCtrlMode", SizeOfCtrlMode, |data|))
    else Ok(CtrlMode(GetU32(data[0..4]), GetU32(data[4..8])))
  }

  /** Decoding an encoded control mode gives it back. */
  lemma CtrlModeRoundTrip(cm: CtrlMode)
    ensures UnmarshalCtrlMode(MarshalCtrlMode(cm)) == Ok(cm)
  {
  }

  /** Every 8-byte payload is the encoding of what it decodes to. */
  lemma CtrlModeCanonical(data: seq<byte>)
    requires |data| == SizeOfCtrlMode
    ensures UnmarshalCtrlMode(data).Ok?
    ensures MarshalCtrlMode(UnmarshalCtrlMode(data).value) == data
  {
    U32Canonical(data[0..4]);
    U32Canonical(data[4..8]);
    assert data == data[0..4] + data[4..8];
  }

  // ---------------------------------------------------------------------
  // struct can_bittiming_const: unmarshalled only

  /** The controller name, Go's `[16]uint8`. */
  type Name16 = s: seq<byte> | |s| == 16 witness Zeros(16)

  datatype BitTimingConst = BitTimingConst(
    name: Name16, tseg1Min: u32, tseg1Max: u32, tseg2Min: u32, tseg2Max: u32,
    sjwMax: u32, brpMin: u32, brpMax: u32, brpInc: u32)

  function BitTimingConstFields(c: BitTimingConst): (ws: seq<u32>)
    ensures |ws| == 8
  {
    [c.tseg1Min, c.tseg1Max, c.tseg2Min, c.tseg2Max, c.sjwMax, c.brpMin, c.brpMax, c.brpInc]
  }

  /** The kernel's layout of the structure: the 16-byte name, then eight
      u32 fields.  The package has no encoder for it; this is the layout
      its decoder reads. */
  function BitTimingConstLayout(c: BitTimingConst): (r: seq<byte>)
    ensures |r| == SizeOfBitTimingConst
  {
    c.name + PackU32s(BitTimingConstFields(c))
  }

  /** `CanBitTimingConst.unmarshalBinary`: exactly 48 bytes, else a size
      error; bytes 0 to 16 are the name, the rest eight u32 fields. */
  function UnmarshalBitTimingConst(data: seq<byte>): (r: Result<BitTimingConst>)
    ensures r.Err? <==> |data| != SizeOfBitTimingConst
    ensures r.Err? ==> r.error == SizeMismatch("CanBitTimingConst", SizeOfBitTimingConst, |data|)
    ensures r.Ok? ==> r.value.name == data[0..16]
    ensures r.Ok? ==> forall i :: 0 <= i < 8 ==> BitTimingConstFields(r.value)[i] == U32At(data[16..], i)
  {
    if |data| != SizeOfBitTimingConst then Err(SizeMismatch("CanBitTimingConst", SizeOfBitTimingConst, |data|))
    else
      var ws := UnpackU32s(data[16..]);
      Ok(BitTimingConst(data[0..16], ws[0], ws[1], ws[2], ws[3], ws[4], ws[5], ws[6], ws[7]))
  }

  /** The decoder reads back every field of the kernel layout. */
  lemma BitTimingConstReadsLayout(c: BitTimingConst)
    ensures UnmarshalBitTimingConst(BitTimingConstLayout(c)) == Ok(c)
  {
    var d := BitTimingConstLayout(c);
    assert d[0..16] == c.name;
    assert d[16..] == PackU32s(BitTimingConstFields(c));
    UnpackPack(BitTimingConstFields(c));
  }

  /** Every 48-byte payload is the layout of what it decodes to: no byte is
      skipped. */
  lemma BitTimingConstCanonical(data: seq<byte>)
    requires |data| == SizeOfBitTimingConst
    ensures UnmarshalBitTimingConst(data).Ok?
    ensures BitTimingConstLayout(UnmarshalBitTimingConst(data).value) == data
  {
    var c := UnmarshalBitTimingConst(data).value;
    assert BitTimingConstFields(c) == UnpackU32s(data[16..]);
    PackUnpack(data[16..]);
    assert data == data[0..16] + data[16..];
  }

  // ---------------------------------------------------------------------
  // struct can_clock: unmarshalled only

  datatype Clock = Clock(freq: u32)

  /** The kernel's layout: the frequency as one u32. */
  function ClockLayout(c: Clock): (r: seq<byte>)
    ensures |r| == SizeOfClock
  {
    PutU32(c.freq)
  }

  /** `CanClock.unmarshalBinary`: exactly 4 bytes, else a size error. */
  function UnmarshalClock(data: seq<byte>): (r: Result<Clock>)
    ensures r.Err? <==> |data| != SizeOfClock
    ensures r.Err? ==> r.error == SizeMismatch("CanClock", SizeOfClock, |data|)
    ensures r.Ok? ==> r.value.freq == GetU32(data)
  {
    if |data| != SizeOfClock then Err(SizeMismatch("CanClock", SizeOfClock, |data|))
    else Ok(Clock(GetU32(data)))
  }

  /** The decoder reads back the kernel layout. */
  lemma ClockReadsLayout(c: Clock)
    ensures UnmarshalClock(ClockLayout(c)) == Ok(c)
  {
    U32RoundTrip(c.freq);
  }

  /** Every 4-byte payload is the layout of what it decodes to. */
  lemma ClockCanonical(data: seq<byte>)
    requires |data| == SizeOfClock
    ensures UnmarshalClock(data).Ok?
    ensures ClockLayout(UnmarshalClock(data).value) == data
  {
    U32Canonical(data);
  }

  // ---------------------------------------------------------------------
  // struct can_berr_counter: unmarshalled only

  datatype BusErrCounters = BusErrCounters(txErr: u16, rxErr: u16)

  /** The kernel's layout: the transmit and receive counters as two u16. */
  function BusErrCountersLayout(c: BusErrCounters): (r: seq<byte>)
    ensures |r| == SizeOfBusErrCounters
  {
    PutU16(c.txErr) + PutU16(c.rxErr)
  }

  /** `CanBusErrCounters.unmarshalBinary`: exactly 4 bytes, else a size error. */
  function UnmarshalBusErrCounters(data: seq<byte>): (r: Result<BusErrCounters>)
    ensures r.Err? <==> |data| != SizeOfBusErrCounters
    ensures r.Err? ==> r.error == SizeMismatch("CanBusErrCounters", SizeOfBusErrCounters, |data|)
    ensures r.Ok? ==> r.value.txErr == GetU16(data[0..2]) && r.value.rxErr == GetU16(data[2..4])
  {
    if |data| != SizeOfBusErrCounters then Err(SizeMismatch("CanBusErrCounters", SizeOfBusErrCounters, |data|))
    else Ok(BusErrCounters(GetU16(data[0..2]), GetU16(data[2..4])))
  }

  /** The decoder reads back the kernel layout. */
  lemma BusErrCountersReadsLayout(c: BusErrCounters)
    ensures UnmarshalBusErrCounters(BusErrCountersLayout(c)) == Ok(c)
  {
    var d := BusErrCountersLayout(c);
    assert d[0..2] == PutU16(c.txErr) && d[2..4] == PutU16(c.rxErr);
    U16RoundTrip(c.txErr);
    U16RoundTrip(c.rxErr);
  }

  /** Every 4-byte payload is the layout of what it decodes to. */
  lemma BusErrCountersCanonical(data: seq<byte>)
    requires |data| == SizeOfBusErrCounters
    ensures UnmarshalBusErrCounters(data).Ok?
    ensures BusErrCountersLayout(UnmarshalBusErrCounters(data).value) == data
  {
    U16Canonical(data[0..2]);
    U16Canonical(data[2..4]);
    assert data == data[0..2] + data[2..4];
  }

  // ---------------------------------------------------------------------
  // struct can_device_stats: unmarshalled only

  datatype DevStats = DevStats(
    busError: u32, errorWarning: u32, errorPassive: u32,
    busOff: u32, arbitrationLost: u32, restarts: u32)

  function DevStatsFields(s: DevStats): (ws: seq<u32>)
    ensures |ws| == 6
  {
    [s.busError, s.errorWarning, s.errorPassive, s.busOff, s.arbitrationLost, s.restarts]
  }

  /** The kernel's layout: six u32 counters in declaration order. */
  function DevStatsLayout(s: DevStats): (r: seq<byte>)
    ensures |r| == SizeOfDevStats
  {
    PackU32s(DevStatsFields(s))
  }

  /** `CanDevStats.unmarshalBinary`: exactly 24 bytes, else a size error. */
  function UnmarshalDevStats(data: seq<byte>): (r: Result<DevStats>)
    ensures r.Err? <==> |data| != SizeOfDevStats
    ensures r.Err? ==> r.error == SizeMismatch("CanDevStats", SizeOfDevStats, |data|)
    ensures r.Ok? ==> forall i :: 0 <= i < 6 ==> DevStatsFields(r.value)[i] == U32At(data, i)
  {
    if |data| != SizeOfDevStats then Err(SizeMismatch("CanDevStats", SizeOfDevStats, |data|))
    else
      var ws := UnpackU32s(data);
      Ok(DevStats(ws[0], ws[1], ws[2], ws[3], ws[4], ws[5]))
  }

  /** The decoder reads back the kernel layout. */
  lemma DevStatsReadsLayout(s: DevStats)
    ensures UnmarshalDevStats(DevStatsLayout(s)) == Ok(s)
  {
    UnpackPack(DevStatsFields(s));
  }

  /** Every 24-byte payload is the layout of what it decodes to. */
  lemma DevStatsCanonical(data: seq<byte>)
    requires |data| == SizeOfDevStats
    ensures UnmarshalDevStats(data).Ok?
    ensures DevStatsLayout(UnmarshalDevStats(data).value) == data
  {
    var s := UnmarshalDevStats(data).value;
    assert DevStatsFields(s) == UnpackU32s(data);
    PackUnpack(data);
  }
}

=== FILE: results.dfy ===
/** Error kinds and the failure-compatible Result type shared by every codec.
    The Go code returns `error` values built with fmt.Errorf; each kind below
    is one of the distinct error conditions those calls report. */
module Results {

  /** The error conditions the codecs report. */
  datatype Error =
    /** binary.Read found no bytes at all (io.EOF). */
    | EndOfInput
    /** binary.Read found fewer bytes than the fixed frame layout (io.ErrUnexpectedEOF). */
    | UnexpectedEnd(got: nat)
    /** A fixed-layout structure was given a byte slice of the wrong length. */
    | SizeMismatch(structure: string, expected: nat, got: nat)
    /** The link is not a CAN device, or its link kind is neither "can" nor "vcan". */
    | NotACanInterface
    /** An attribute payload that should hold nested attributes does not parse as such. */
    | MalformedAttributes
    /** The transport answered a request with more than one message. */
    | TooManyReplies(count: nat)

  /** An optional value. */
  datatype Option<+T> = None | Some(value: T)

  /** Either a value or the error that stopped the computation. */
  datatype Result<+T> = Ok(value: T) | Err(error: Error) {

    predicate IsFailure() {
      Err?
    }

    function PropagateFailure<U>(): Result<U>
      requires Err?
    {
      Err(error)
    }

    function Extract(): T
      requires Ok?
    {
      value
    }
  }
}
